=== FILE: README.md ===
# infloop core in Dafny

This project models the deterministic core of the infloop study tooling:

- the Go SDK for the polyreduce mesh-simplification service (`polyreduce`
  package): the client record, the URL each operation builds, the local
  `.fbx` upload precondition, and how every operation classifies what the
  transport and the server gave back (decode first, then a status other than
  200 becomes an error carrying the server's `msg`; which operations panic
  on an undelivered request; which never look at the status);
- the dataset-reduction driver built on the SDK (`example/main.go`): layer
  extraction from an OBJ file, the 99 uniform configurations, and the
  configure → run → download round;
- the rating-distribution export (`scripts/rating_dist_parse.go`): the CSV
  scanner with its header index, the model key taken from a path, the
  "later rows overwrite" time map, the stable sort by upload time, the
  negative-rating filter and the numbering into iterations of four;
- the distribution generator (`utils/dist_gen.go`): all 1296 rating tuples
  over 0..5 in nested-loop order, printed one per line;
- the session-id collector (`utils/find_root.go`): a user's roots, the
  per-user record counts and the distinct roots written per user.

The SDK is stateless apart from its endpoint, so there is no session state
machine to model. The network, the file system, `encoding/json` and
`time.Parse` are abstracted to their outcomes, passed in as parameters:

- `Http.Exchange` is what the transport did with a request. It is
  `Unbuildable` (request construction failed), `Unreachable` (`Do` failed) or
  `Delivered(status, body)`.
- `Http.Payload` is what reading and decoding the body gave:
  `Unreadable`, `Malformed` or `Decoded(Reply(data, msg))`.
- `Http.Disk` is what `os.Create` and `io.Copy` did with a download target.
- A file read is a `Result` of its bytes or its error.
- `time.Parse` is a function from text to Unix seconds, or `None` on a parse error.
- The `Read` records are what `csv.Reader.Read` returns, one per call.

Every SDK operation returns an `Http.Trace`: the effects it performed, in
order (file reads, requests sent, files written, lines printed), and whether
the Go call returned a value, returned an error, or panicked. An error made
with `fmt.Errorf("prefix: %w", err)` is the text `prefix + ": " + err`.

Modules follow the program's structure: `Wrappers` (Option/Result),
`Text` (the `strings` functions used, decimal printing), `Http`,
`SdkClient`, `Routes` (URL paths and their parser), `FbxCheck`,
`ProPolyred`, `Polyred`, `Example`, `RatingDist`, `DistGen`, `FindRoot`.

## Model

| member | source | states |
|---|---|---|
| SdkClient.NewClient | tools/polyreduce-sdk-go/client.go:19-21 | the client talks to "https://polyreduce.com" and is the same client NewClientWithEndpoint gives for that endpoint |
| SdkClient.NewClientWithEndpoint | tools/polyreduce-sdk-go/client.go:24-28 | the endpoint is used verbatim |
| SdkClient.SetEndpoint | tools/polyreduce-sdk-go/client.go:31-33 | afterwards the endpoint is the new one and the client equals a fresh client on it, so nothing else changes |
| SdkClient.SetEndpointLastWins | tools/polyreduce-sdk-go/client.go:31-33 | of two successive updates the second one wins |
| SdkClient.SetEndpointIdempotent | tools/polyreduce-sdk-go/client.go:31-33 | setting the current endpoint changes nothing; setting a value twice is setting it once |
| Text.ToLower | tools/polyreduce-sdk-go/propolyred.go:35 | same length as the input, each character lowered on its own |
| Text.TrimPrefix | tools/polyreduce-sdk-go/example/main.go:78 | with the prefix present, prefix + result is the input; otherwise the input is returned unchanged |
| Text.TrimSuffix | scripts/rating_dist_parse.go:103 | with the suffix present, result + suffix is the input; otherwise the input is returned unchanged |
| Text.Split | scripts/rating_dist_parse.go:98 | one more piece than there are separators, and no piece contains the separator |
| Text.JoinSplit | scripts/rating_dist_parse.go:98 | joining the pieces with the separator gives back the input |
| Text.SplitJoin | scripts/rating_dist_parse.go:98 | splitting a join of separator-free pieces gives back those pieces |
| Text.SplitAtFirst | scripts/rating_dist_parse.go:98 | the first piece is the text up to the first separator, and the rest splits on its own |
| Text.SplitWithoutSeparator | scripts/rating_dist_parse.go:99 | a text without the separator splits into itself alone |
| Text.NatDecimal | scripts/rating_dist_parse.go:78 | `%v` of a natural number: at least one digit, and no leading zero unless the number is 0 |
| Text.Decimal | scripts/rating_dist_parse.go:78 | `%v` of an integer is non-empty and holds no ',', ' ' or ']' |
| Text.DecimalRoundTrip | scripts/rating_dist_parse.go:78 | parsing what `%v` prints for an integer gives the integer back |
| Http.NumberObject | tools/polyreduce-sdk-go/propolyred.go:207 | the JSON object of a number map has the map's keys, each holding its own number, and json.Marshal accepts it exactly when every value is finite |
| Http.Authenticated | tools/polyreduce-sdk-go/propolyred.go:97-101 | the request keeps method, URL and body, and carries the basic-auth pair way / secret-pass |
| Http.Wrap | tools/polyreduce-sdk-go/propolyred.go:99 | a prefixed error reads prefix + ": " + cause; no prefix leaves the cause bare |
| Http.Classify | tools/polyreduce-sdk-go/propolyred.go:109-123 | an unreadable or undecodable body is that error whatever the status; a decoded body fails exactly when the status is checked and is not 200, with the server message as the text; success returns the decoded reply |
| Http.Exchanged | tools/polyreduce-sdk-go/propolyred.go:97-123 | nothing is sent when the request cannot be built; an undelivered request panics or is returned as an error by policy; a delivered one is classified |
| Http.Streamed | tools/polyreduce-sdk-go/propolyred.go:133-150 | a delivered download is written to the path whatever its status: the file is created, then the body copied into it; create and copy errors are returned, in that order, a copy error after the file exists |
| Http.ErrorOnly | tools/polyreduce-sdk-go/propolyred.go:235-238 | dropping the returned value keeps the effects, the panic and the error text |
| Routes.Url | tools/polyreduce-sdk-go/propolyred.go:33 | the URL starts with the endpoint and continues with the route's path |
| Routes.ProDownloadRoundTrip | tools/polyreduce-sdk-go/propolyred.go:132 | a download path splits back into session and phase when the session holds no '/' |
| Routes.ProPathRoundTrip | tools/polyreduce-sdk-go/propolyred.go:33-163 | the upload, run and evaluate paths of the session service parse back to their routes |
| Routes.ProDownloadPathRoundTrip | tools/polyreduce-sdk-go/propolyred.go:132 | a download path parses back to its route when the session holds no '/' |
| Routes.ProSessionPathRoundTrip | tools/polyreduce-sdk-go/propolyred.go:252-293 | reset and copy paths parse back to their routes |
| Routes.PlainPathRoundTrip | tools/polyreduce-sdk-go/polyred.go:34-190 | the upload, config, run and download paths of the plain service parse back to their routes |
| Routes.PathRoundTrip | tools/polyreduce-sdk-go/propolyred.go:33-293 | parsing a recoverable route's path gives the route back |
| Routes.UrlRoundTrip | tools/polyreduce-sdk-go/polyred.go:34 | parsing a URL against its endpoint gives the route back |
| Routes.UrlInjective | tools/polyreduce-sdk-go/propolyred.go:96 | two recoverable routes on one endpoint share a URL only if they are the same route |
| FbxCheck.IsFbxPathLastFour | tools/polyreduce-sdk-go/propolyred.go:35-37 | a path passes exactly when its last four characters, lowered, are ".fbx" |
| FbxCheck.AnyCaseAccepted | tools/polyreduce-sdk-go/polyred.go:36-38 | every capitalisation of ".fbx" passes, whatever comes before it |
| FbxCheck.ContainedIsNotEnough | tools/polyreduce-sdk-go/propolyred.go:35-37 | a name that only contains ".fbx" earlier ("model.fbx.zip") is rejected |
| FbxCheck.UpperCaseAccepted | tools/polyreduce-sdk-go/propolyred.go:35-37 | "MODEL.FBX" passes |
| ProPolyred.UploadRequest | tools/polyreduce-sdk-go/propolyred.go:33-61 | POST to endpoint + "/api/v1/propolyred/upload" with the file under form field "file", authenticated |
| ProPolyred.RunRequest | tools/polyreduce-sdk-go/propolyred.go:96-101 | POST to endpoint + "/api/v1/propolyred/run/" + session, no body, authenticated |
| ProPolyred.DownloadRequest | tools/polyreduce-sdk-go/propolyred.go:132-137 | GET to endpoint + "/api/v1/propolyred/download/" + session + "/" + phase, authenticated |
| ProPolyred.InspectRequest | tools/polyreduce-sdk-go/propolyred.go:163-169 | GET to endpoint + "/api/v1/propolyred/evaluate/" + session, authenticated |
| ProPolyred.EvaluateRequest | tools/polyreduce-sdk-go/propolyred.go:205-216 | PUT to the same evaluate URL with the ratings as a JSON object, authenticated |
| ProPolyred.ResetRequest | tools/polyreduce-sdk-go/propolyred.go:252-257 | POST to endpoint + "/api/v1/propolyred/reset/" + session, authenticated |
| ProPolyred.CopyRequest | tools/polyreduce-sdk-go/propolyred.go:293-298 | POST to endpoint + "/api/v1/propolyred/copy/" + session, authenticated |
| ProPolyred.Upload | tools/polyreduce-sdk-go/propolyred.go:32-84 | a non-.fbx path fails with "only .FBX model is supported" before any read or send; the file is read first and its error returned; a request that cannot be built fails unsent; an undelivered request panics; a body read error is returned; a non-200 status fails with the server message; a decode error wins over the status |
| ProPolyred.Run | tools/polyreduce-sdk-go/propolyred.go:95-124 | each failing step returns its prefixed error ("failed to create request", "failed to send the request", "failed to read response body", "failed to parse the run output"); a non-200 status fails with the bare server message; 200 returns the decoded phases |
| ProPolyred.Download | tools/polyreduce-sdk-go/propolyred.go:131-151 | an unbuilt or undelivered request, a create error and a copy error are each returned bare; a delivered response is written to the path without looking at it; it never panics |
| ProPolyred.Inspect | tools/polyreduce-sdk-go/propolyred.go:162-193 | sends one GET unless the request cannot be built; build, send, read and decode errors are returned bare; a non-200 status fails with the server message |
| ProPolyred.Evaluate | tools/polyreduce-sdk-go/propolyred.go:204-239 | a NaN or infinite rating fails with "failed to marshal rating: …" before anything is sent; an unbuilt request, a send failure, a read failure and a decode failure return "failed to create request: …", "failed to send request: …", "failed to parse response body: …" and "failed to parse evaluate output: …"; a non-200 status fails with the server message |
| ProPolyred.Reset | tools/polyreduce-sdk-go/propolyred.go:251-280 | sends one POST unless the request cannot be built; build, send, read and decode errors are returned bare; a non-200 status fails with the server message |
| ProPolyred.Copy | tools/polyreduce-sdk-go/propolyred.go:292-321 | sends one POST unless the request cannot be built; build, read and decode errors are returned bare; an undelivered request panics; a non-200 status fails with the server message |
| ProPolyred.InspectEvaluateShareUrl | tools/polyreduce-sdk-go/propolyred.go:163-212 | Inspect and Evaluate address the same URL and differ in method, GET against PUT |
| ProPolyred.SessionUrlsDistinct | tools/polyreduce-sdk-go/propolyred.go:96-293 | run, reset, copy and evaluate URLs of one session are pairwise different, and downloads of different phases differ |
| ProPolyred.UndeliveredPolicy | tools/polyreduce-sdk-go/propolyred.go:63-303 | an undelivered request panics in Upload and Copy and is returned as an error by Run, Inspect, Evaluate, Reset and Download |
| ProPolyred.DownloadIgnoresStatus | tools/polyreduce-sdk-go/propolyred.go:138-150 | the download's outcome does not depend on the status code |
| ProPolyred.MalformedHidesStatus | tools/polyreduce-sdk-go/propolyred.go:114-122 | with an undecodable body the outcome is the same for every status, so the server message never surfaces |
| Polyred.ConfigDoc | tools/polyreduce-sdk-go/polyred.go:99-103 | the configuration body has the single key "percent" holding the ratio map |
| Polyred.UploadRequest | tools/polyreduce-sdk-go/polyred.go:34-62 | POST to endpoint + "/api/v1/polyred/upload" with the file under form field "file", authenticated |
| Polyred.ConfigRequest | tools/polyreduce-sdk-go/polyred.go:98-113 | POST to endpoint + "/api/v1/polyred/config/" + model with the "percent" document, authenticated |
| Polyred.RunRequest | tools/polyreduce-sdk-go/polyred.go:150-155 | POST to endpoint + "/api/v1/polyred/run/" + model, authenticated |
| Polyred.DownloadRequest | tools/polyreduce-sdk-go/polyred.go:190-195 | GET to endpoint + "/api/v1/polyred/download/" + model, authenticated |
| Polyred.PolyredUpload | tools/polyreduce-sdk-go/polyred.go:33-78 | the same .fbx check before any read or send; never panics; build, send, read and decode errors are returned bare; a decoded reply is returned whatever the status |
| Polyred.PolyredConfig | tools/polyreduce-sdk-go/polyred.go:97-135 | a NaN or infinite ratio fails before sending; build, send, read and decode errors are returned bare; a non-200 status fails with "failed to send configuration: " + message; never panics |
| Polyred.PolyredRun | tools/polyreduce-sdk-go/polyred.go:149-177 | build, send, read and decode errors are returned bare; a non-200 status fails with "failed to run: " + message; 200 with a decodable body succeeds; never panics |
| Polyred.PolyredDownload | tools/polyreduce-sdk-go/polyred.go:189-209 | an unbuilt or undelivered request, a create error and a copy error are each returned bare; a delivered response is written to the path without looking at it; never panics |
| Polyred.ConfigBodyRoundTrip | tools/polyreduce-sdk-go/polyred.go:99-103 | reading the ratio map back out of the configuration body gives exactly the map sent |
| Polyred.ReconfigurationTargetsSameUrl | tools/polyreduce-sdk-go/polyred.go:96-98 | every reconfiguration of a model is a POST to the same URL, and two configuration requests coincide exactly when their ratio maps do |
| Polyred.UploadIgnoresStatus | tools/polyreduce-sdk-go/polyred.go:75-77 | the plain upload's trace does not depend on the status code |
| Polyred.UploadVariantsDiffer | tools/polyreduce-sdk-go/polyred.go:64-77 | on an undelivered request the session upload panics and the plain one returns the error; on a non-200 status the session upload fails and the plain one succeeds |
| Example.LayerOfLine | tools/polyreduce-sdk-go/example/main.go:74-78 | a line names a layer exactly when it starts with "o ", and "o " + layer is the line |
| Example.LayerOfLineInverse | tools/polyreduce-sdk-go/example/main.go:74-78 | a line names `layer` exactly when it is "o " + layer |
| Example.LayersOf | tools/polyreduce-sdk-go/example/main.go:71-79 | no more layers than lines |
| Example.LayersOfMembers | tools/polyreduce-sdk-go/example/main.go:71-79 | a name is a layer exactly when "o " + name is one of the lines |
| Example.LayersOfAppend | tools/polyreduce-sdk-go/example/main.go:73-79 | layers keep file order: the layers of two line runs are concatenated |
| Example.OtherLinesIgnored | tools/polyreduce-sdk-go/example/main.go:74-76 | a line not starting with "o " contributes nothing, wherever it stands |
| Example.ExtractLayers | tools/polyreduce-sdk-go/example/main.go:71-79 | the loop over the newline-split file yields exactly LayersOf of the lines |
| Example.UniformConfig | tools/polyreduce-sdk-go/example/main.go:93-96 | the configuration maps every layer, and only the layers, to i |
| Example.UniformConfigs | tools/polyreduce-sdk-go/example/main.go:91-98 | 99 configurations; the n-th maps every layer, and only the layers, to n + 1 |
| Example.GenerateConfigs | tools/polyreduce-sdk-go/example/main.go:91-98 | the loop builds exactly UniformConfigs: 99 configurations, the n-th mapping exactly the layers to n + 1 |
| Example.MustSucceed | tools/polyreduce-sdk-go/example/main.go:28-30 | an error becomes a panic with the same text; a success passes through |
| Example.ThenAssociative | tools/polyreduce-sdk-go/example/main.go:22-54 | chaining steps that stop at the first panic is associative, so a round's three steps may be grouped either way |
| Example.DownloadPath | tools/polyreduce-sdk-go/example/main.go:49 | the download file name is the model path, "_", the mean label and ".fbx", and the label can be read back out of it |
| Example.Simplify | tools/polyreduce-sdk-go/example/main.go:22-54 | a failing configuration panics with its error before the run; a failing run panics with its error before the download; after both succeed the download runs and its error panics; it never returns an error |
| Example.SmoothRound | tools/polyreduce-sdk-go/example/main.go:22-54 | when everything succeeds the round sends config, run and download, in that order, then writes the file |
| Example.SimplifyAll | tools/polyreduce-sdk-go/example/main.go:100-102 | no rounds end normally with no effects; a panic in the first round ends the loop there; otherwise the first round's effects are followed by those of the remaining rounds, which decide the outcome |
| Example.SmoothRoundsSucceed | tools/polyreduce-sdk-go/example/main.go:100-102 | when every round goes smoothly the loop ends normally after five effects per round |
| Example.FbxPath | tools/polyreduce-sdk-go/example/main.go:81 | the upload path model + "_0.fbx" passes the .fbx check |
| Example.UploadAndReduce | tools/polyreduce-sdk-go/example/main.go:81-102 | the first effect reads model + "_0.fbx"; a failed upload panics with its error; otherwise the returned id is printed and the 99 rounds run on that id with the uniform configurations of the given layers |
| Example.Process | tools/polyreduce-sdk-go/example/main.go:65-103 | the first effect reads model + "_0.obj" (its error panics); otherwise upload and reduce run with the "o " layer names of that file's lines |
| Example.RoundSendsItsConfig | tools/polyreduce-sdk-go/example/main.go:100-102 | once the earlier rounds went smoothly, round n sends the n-th configuration for the same model id |
| Example.RoundConfiguresUploadedModel | tools/polyreduce-sdk-go/example/main.go:81-102 | round n configures the id the upload returned with ratio n + 1 for exactly the given layers |
| Example.FirstRoundConfiguresObjLayers | tools/polyreduce-sdk-go/example/main.go:65-102 | the first round sends ratio 1 to the uploaded id for exactly the names on the OBJ file's "o " lines |
| RatingDist.HeaderIndex | scripts/rating_dist_parse.go:137-140 | every header name maps to a column holding that name, no later column holds it, and only header names are mapped |
| RatingDist.NewScanner | scripts/rating_dist_parse.go:131-142 | a failed header read gives the zero scanner; otherwise the scanner reads on after the header with its index |
| RatingDist.Scan | scripts/rating_dist_parse.go:144-148 | the zero scanner panics; otherwise it reports success exactly when the next read succeeded, and then holds that record and advances |
| RatingDist.Cell | scripts/rating_dist_parse.go:150-152 | a known name reads the cell at its index, and an index outside the row panics; an unknown name reads column 0 |
| RatingDist.TextReadsLastColumnNamed | scripts/rating_dist_parse.go:137-152 | on a full-width row a name reads the cell under its last header occurrence, and an unknown name the first cell |
| RatingDist.KeyOfPath | scripts/rating_dist_parse.go:94-109 | a key is produced exactly for a path containing ".fbx" and a "/", and it is a piece of the path right after a "/" |
| RatingDist.KeyOfFlatPath | scripts/rating_dist_parse.go:94-109 | dir/name.fbx is keyed by name |
| RatingDist.KeyOfNestedPath | scripts/rating_dist_parse.go:94-109 | a path dir/seg or dir/seg/… that contains ".fbx" is keyed by seg without a trailing ".fbx" |
| RatingDist.KeyOfDeepPath | scripts/rating_dist_parse.go:98-109 | "a/b/c.fbx" is keyed by the second segment "b", not by the file name |
| RatingDist.KeyOfBareName | scripts/rating_dist_parse.go:98-101 | a path with no "/" is skipped |
| RatingDist.KeyOfOtherFile | scripts/rating_dist_parse.go:94-96 | a path without ".fbx" is skipped |
| RatingDist.SecondSegment | scripts/rating_dist_parse.go:98-103 | the second piece of a split stands right after the first piece and a separator |
| RatingDist.TrimmedInPlace | scripts/rating_dist_parse.go:103 | a piece that stands after a separator still does so with a suffix trimmed off |
| RatingDist.Absorb | scripts/rating_dist_parse.go:94-109 | a row panics exactly when its path column is missing or its time is unreadable on a keyed row; an unkeyed row leaves the map alone; a keyed row sets its key to its time |
| RatingDist.FoldRows | scripts/rating_dist_parse.go:93-110 | the loop panics exactly when some row panics |
| RatingDist.FoldRowsLastWins | scripts/rating_dist_parse.go:109 | each key ends up with the time of the last row carrying it; keys no row carries keep their earlier value |
| RatingDist.ScanAllIsFold | scripts/rating_dist_parse.go:92-111 | the scanning loop equals the fold over the records read before the first failed read |
| RatingDist.ParseAllTime | scripts/rating_dist_parse.go:86-112 | an unreadable header panics; otherwise the result is the fold over the visited records from the empty map |
| RatingDist.ParseAllTimeLastWins | scripts/rating_dist_parse.go:91-111 | each model key maps to the time of the last row naming it, and keys no row names are absent |
| RatingDist.Truncate | scripts/rating_dist_parse.go:67 | `int(rating)` truncates toward zero |
| RatingDist.KeptRatings | scripts/rating_dist_parse.go:67-77 | a rating survives the filter exactly when it is above -1 |
| RatingDist.RowsOf | scripts/rating_dist_parse.go:64-68 | one row per variant with the session id as root, the model's time or the zero time (-62135596800), and the truncated rating |
| RatingDist.Insert | scripts/rating_dist_parse.go:69-71 | inserting adds exactly the new row |
| RatingDist.InsertNotBefore | scripts/rating_dist_parse.go:69-71 | a time bound on the rows and the new row bounds the result |
| RatingDist.InsertAscending | scripts/rating_dist_parse.go:69-71 | inserting into an ascending sequence keeps it ascending |
| RatingDist.InsertFrontTies | scripts/rating_dist_parse.go:69-71 | a row earlier than all others goes first, and no other row shares its time |
| RatingDist.InsertKeepsTies | scripts/rating_dist_parse.go:69-71 | the new row goes after the rows with its time |
| RatingDist.SortByTime | scripts/rating_dist_parse.go:69-71 | the result is ascending by time and a permutation of the input |
| RatingDist.SortByTimeStable | scripts/rating_dist_parse.go:69-71 | rows with equal times keep their input order |
| RatingDist.WithTimeAppend | scripts/rating_dist_parse.go:69-71 | the rows of one time in a concatenation are those of the parts, in order |
| RatingDist.WithTimeAbsent | scripts/rating_dist_parse.go:69-71 | no row has a time nobody carries |
| RatingDist.Kept | scripts/rating_dist_parse.go:74-77 | the kept rows all have non-negative ratings and come from the input |
| RatingDist.KeptComplete | scripts/rating_dist_parse.go:74-77 | every row with a non-negative rating is kept, as often as it occurs |
| RatingDist.KeptAppend | scripts/rating_dist_parse.go:73-77 | the filter decides row by row, so the kept rows keep the input order |
| RatingDist.KeptNotBefore | scripts/rating_dist_parse.go:74-77 | filtering keeps a lower time bound |
| RatingDist.KeptAscending | scripts/rating_dist_parse.go:69-77 | filtering keeps time order |
| RatingDist.Emit | scripts/rating_dist_parse.go:73-80 | one line per kept row, the n-th carrying that row and iteration n / 4 |
| RatingDist.EmitIterations | scripts/rating_dist_parse.go:73-80 | iterations start at 0, never decrease, grow by at most one, and no iteration holds more than four lines |
| RatingDist.DistributionOrdered | scripts/rating_dist_parse.go:64-80 | a session's lines are in time order, carry its id and only non-negative ratings |
| RatingDist.FormatLineFields | scripts/rating_dist_parse.go:78 | a printed line splits back into its five fields when the ids hold no comma |
| DistGen.Rank | utils/dist_gen.go:23-27 | a tuple's step number lies in 0..1295 |
| DistGen.TupleAt | utils/dist_gen.go:23-27 | the tuple at each step has four entries in 0..5 |
| DistGen.TupleAtRank | utils/dist_gen.go:23-28 | every valid tuple is the one produced at its step |
| DistGen.RankTupleAt | utils/dist_gen.go:23-28 | every step's tuple has that step as its rank |
| DistGen.RankOrder | utils/dist_gen.go:23-28 | a tuple comes earlier exactly when it is lexicographically smaller |
| DistGen.Enumerate | utils/dist_gen.go:21-31 | 1296 tuples, the n-th being the base-6 digits of n, and every valid tuple at its rank |
| DistGen.EnumerationSorted | utils/dist_gen.go:23-28 | the tuples are in strictly increasing lexicographic order, so none repeats |
| DistGen.Decimals | utils/dist_gen.go:34 | one word per value, each its decimal form |
| DistGen.FormatInts | utils/dist_gen.go:34 | `%v` of an int slice is bracketed |
| DistGen.ParseAll | utils/dist_gen.go:34 | reading numbers back gives one value per word |
| DistGen.ParseAllDecimals | utils/dist_gen.go:34 | the printed numbers read back as the numbers |
| DistGen.FormatIntsRoundTrip | utils/dist_gen.go:34 | every printed slice reads back as the slice |
| DistGen.Output | utils/dist_gen.go:33-35 | one line per tuple, in generation order, each reading back as its tuple |
| DistGen.TupleLine | utils/dist_gen.go:34 | a generated tuple prints as "[i j k l]" |
| FindRoot.RootsOf | utils/find_root.go:39-54 | a root is listed exactly when some record of the user has it; never longer than the list |
| FindRoot.CountOfAppend | utils/find_root.go:68-71 | record counts add up over concatenation |
| FindRoot.RootsOfCount | utils/find_root.go:40-51 | one root per record of the user, duplicates kept |
| FindRoot.GetAllRating | utils/find_root.go:39-54 | the two loops return the user's roots in list order |
| FindRoot.UserCounts | utils/find_root.go:68-71 | exactly the user ids appear, each with a count of at least one |
| FindRoot.UserCountsCount | utils/find_root.go:68-71 | each user's count is the number of their records |
| FindRoot.CountOfAbsent | utils/find_root.go:68-71 | a user without records counts zero |
| FindRoot.Distinct | utils/find_root.go:78-81 | the same roots, each once |
| FindRoot.DistinctOnce | utils/find_root.go:78-81 | each root of the list occurs exactly once in the distinct list, and nothing else occurs |
| FindRoot.Output | utils/find_root.go:77-85 | a line is printed exactly when some walked user has a record with that root; OutputCount fixes how often |
| FindRoot.OutputCount | utils/find_root.go:77-85 | each root is printed once for every walked user who has a record with it, so a root shared by two users is printed twice |
| FindRoot.UserBlock | utils/find_root.go:78-84 | a user's block has no repeated root and no more lines than records |
| FindRoot.OutputCoversRoots | utils/find_root.go:68-85 | walking every counted user prints the root of every record and nothing else |

## Left out

- Transport and files: `net/http`, multipart encoding, `Content-Type` headers, contexts, `os` and `io` are not executed; their outcomes are the parameters described above.
- Http.Streamed: a copy error is recorded after `CreateFile` with no `WriteFile`. Go's `io.Copy` may already have written part of the body to the file before failing.
- `encoding/json`: decoding is abstracted to `Payload`, and `omitempty` and field tags are not modelled. A marshal error is always the single text "json: unsupported value"; Go's real message also names the value.
- Multipart construction errors (`CreateFormFile`, `writer.Close`) are folded into `Unbuildable`; the uploads return them bare, as `http.NewRequest` errors are.
- Text.ToLower: lowers ASCII letters only. Go lowers all of Unicode. No non-ASCII character lowers to '.', 'f', 'b' or 'x', so the .fbx test is decided the same way.
- Polyred.PolyredUpload: on a decode error it returns only the error. Go also returns the partly filled output object.
- Polyred.PolyredConfig: a nil ratio map is treated as an empty one. Go marshals nil as `null`.
- ProPolyred.Evaluate: a nil rating map is treated as an empty one. Go marshals nil as `null`.
- Example.DownloadPath: the model path is taken literally. Go passes it inside the `Sprintf` format, so a '%' in it would be read as a verb. The five model paths `main` uses contain no '%'.
- Example.Process: the mean ratio in the download file name (`%v` of a float average) is a per-round parameter (`meanLabel`). The loop of `main` over five fixed model paths is not modelled.
- RatingDist: reading `base.json`, creating the output file and the loop over the twelve session ids are I/O. `Distribution` models the lines for one session.
- RatingDist: `time.Parse` is a parameter returning Unix seconds. `time.Time` is reduced to that number.
- RatingDist.RowsOf: the order in which Go walks the variants map is unspecified. It is a parameter (`variants`), so ties in time keep that order.
- RatingDist.Scan: `csv.Reader` quoting and field-count checking are not modelled. A read that reports an error is `Read(record, true)`.
- RatingDist: the header line "root,model,unixTime,iteration,rating,\n" has a trailing comma. It is kept as the constant `CsvHeader` but not proved about.
- FindRoot.Output: each user's roots come out in first-occurrence order, and the users in the order of the `users` parameter. Go walks both maps in unspecified order, so only which lines make up each user's block is meaningful.
- FindRoot: reading and unmarshalling `seq.json` and creating `all.txt` are I/O; only `userId` and `root` of a record are modelled.
- The health probe (`ping.go`), the CLI (`tools/main.go`, `tools/cmd/cmd.go`), the filesystem walk in `utils/time.go`, `utils/extract_utility.go`, `utils/seqlen.go` and every Python script are not part of this model: they are plumbing, floating-point statistics or foreign libraries.

=== FILE: client.dfy ===
/**
 * The SDK client: a record holding only the service endpoint. It keeps no
 * other state, so every operation's behaviour depends on the client only
 * through this one string.
 */
module SdkClient {

  /** The endpoint `NewClient` uses. */
  const DefaultEndpoint := "https://polyreduce.com"

  datatype Client = Client(endpoint: string)

  /** A client talking to the default endpoint. */
  function NewClient(): (c: Client)
    ensures c.endpoint == DefaultEndpoint
    ensures c == NewClientWithEndpoint(DefaultEndpoint)
  {
    NewClientWithEndpoint(DefaultEndpoint)
  }

  /** A client talking to `endpoint`, used verbatim. */
  function NewClientWithEndpoint(endpoint: string): (c: Client)
    ensures c.endpoint == endpoint
  {
    Client(endpoint)
  }

  /** Replaces the endpoint; the client has no other field that could change. */
  function SetEndpoint(c: Client, endpoint: string): (c': Client)
    ensures c'.endpoint == endpoint
    ensures c' == NewClientWithEndpoint(endpoint)
  {
    c.(endpoint := endpoint)
  }

  /** Successive updates: the last one wins. */
  lemma SetEndpointLastWins(c: Client, first: string, second: string)
    ensures SetEndpoint(SetEndpoint(c, first), second) == SetEndpoint(c, second)
  {
  }

  /** Setting the endpoint it already has changes nothing, and setting twice is setting once. */
  lemma SetEndpointIdempotent(c: Client, endpoint: string)
    ensures SetEndpoint(c, c.endpoint) == c
    ensures SetEndpoint(SetEndpoint(c, endpoint), endpoint) == SetEndpoint(c, endpoint)
  {
  }
}

=== FILE: dist_gen.dfy ===
/**
 * The distribution generator: every way four variants can be rated on a
 * 0..5 scale, one `[i j k l]` line each, in nested-loop order.
 */
module DistGen {
  import opened Wrappers
  import opened Text

  /** Ratings run over 0 .. Levels - 1. */
  const Levels := 6
  /** Variants rated at a time. */
  const Width := 4
  /** 6 * 6 * 6 * 6 tuples in all. */
  const Count := 1296

  predicate ValidTuple(t: seq<int>) {
    |t| == Width && forall p :: 0 <= p < |t| ==> 0 <= t[p] < Levels
  }

  /** Position of the tuple in the loop order: the last entry varies fastest. */
  function Rank(t: seq<int>): (n: int)
    requires ValidTuple(t)
    ensures 0 <= n < Count
  {
    ((t[0] * 6 + t[1]) * 6 + t[2]) * 6 + t[3]
  }

  /** The tuple the loops produce at step `n`: base-6 digits, most significant first. */
  function TupleAt(n: int): (t: seq<int>)
    requires 0 <= n < Count
    ensures ValidTuple(t)
  {
    [n / 216, n / 36 % 6, n / 6 % 6, n % 6]
  }

  /** Rank and TupleAt are inverse bijections between valid tuples and 0 .. 1295. */
  lemma TupleAtRank(t: seq<int>)
    requires ValidTuple(t)
    ensures TupleAt(Rank(t)) == t
  {
    var n := Rank(t);
    assert n == 6 * (36 * t[0] + 6 * t[1] + t[2]) + t[3];
    assert n / 6 == 36 * t[0] + 6 * t[1] + t[2];
    assert n / 36 == 6 * t[0] + t[1];
    assert n / 216 == t[0];
  }

  lemma RankTupleAt(n: int)
    requires 0 <= n < Count
    ensures Rank(TupleAt(n)) == n
  {
    var t := TupleAt(n);
    assert n == 6 * (n / 6) + n % 6;
    assert n / 6 == 6 * (n / 36) + n / 6 % 6;
    assert n / 36 == 6 * (n / 216) + n / 36 % 6;
  }

  /** Lexicographic order on equal-length tuples. */
  predicate LexLess(a: seq<int>, b: seq<int>)
    requires |a| == |b|
  {
    exists p :: 0 <= p < |a| && a[p] < b[p] && a[..p] == b[..p]
  }

  /** The loop order is the lexicographic order: earlier steps give smaller tuples. */
  lemma RankOrder(a: seq<int>, b: seq<int>)
    requires ValidTuple(a) && ValidTuple(b)
    ensures LexLess(a, b) <==> Rank(a) < Rank(b)
  {
    if Rank(a) < Rank(b) {
      var p := if a[0] != b[0] then 0 else if a[1] != b[1] then 1 else if a[2] != b[2] then 2 else 3;
      assert a[..p] == b[..p];
      assert a[p] < b[p];
    }
    if LexLess(a, b) {
      var p :| 0 <= p < |a| && a[p] < b[p] && a[..p] == b[..p];
      assert forall q :: 0 <= q < p ==> a[q] == a[..p][q] == b[..p][q] == b[q];
    }
  }

  /**
   * The four nested loops of the generator. The result has every valid
   * tuple exactly at its rank: 1296 tuples, in strictly increasing
   * lexicographic order, none missing.
   */
  method Enumerate() returns (all: seq<seq<int>>)
    ensures |all| == Count
    ensures forall n :: 0 <= n < |all| ==> all[n] == TupleAt(n)
    ensures forall t :: ValidTuple(t) ==> all[Rank(t)] == t
  {
    all := [];
    var i := 0;
    while i < 6
      invariant 0 <= i <= 6
      invariant |all| == i * 216
      invariant forall n :: 0 <= n < |all| ==> all[n] == TupleAt(n)
    {
      var j := 0;
      while j < 6
        invariant 0 <= j <= 6
        invariant |all| == i * 216 + j * 36
        invariant forall n :: 0 <= n < |all| ==> all[n] == TupleAt(n)
      {
        var k := 0;
        while k < 6
          invariant 0 <= k <= 6
          invariant |all| == i * 216 + j * 36 + k * 6
          invariant forall n :: 0 <= n < |all| ==> all[n] == TupleAt(n)
        {
          var l := 0;
          while l < 6
            invariant 0 <= l <= 6
            invariant |all| == i * 216 + j * 36 + k * 6 + l
            invariant forall n :: 0 <= n < |all| ==> all[n] == TupleAt(n)
          {
            TupleAtRank([i, j, k, l]);
            all := all + [[i, j, k, l]];
            l := l + 1;
          }
          k := k + 1;
        }
        j := j + 1;
      }
      i := i + 1;
    }
    forall t | ValidTuple(t) ensures all[Rank(t)] == t {
      TupleAtRank(t);
    }
  }

  /** The generated list has no repeats and is sorted. */
  lemma EnumerationSorted()
    ensures forall m, n :: 0 <= m < n < Count ==> LexLess(TupleAt(m), TupleAt(n))
  {
    forall m, n | 0 <= m < n < Count ensures LexLess(TupleAt(m), TupleAt(n)) {
      RankTupleAt(m);
      RankTupleAt(n);
      RankOrder(TupleAt(m), TupleAt(n));
    }
  }

  // ---------------------------------------------------------------------
  // Printing with "%v\n"

  /** The decimal form of each value. */
  function Decimals(t: seq<int>): (words: seq<string>)
    ensures |words| == |t|
    ensures forall p :: 0 <= p < |t| ==> words[p] == Decimal(t[p])
  {
    if |t| == 0 then [] else [Decimal(t[0])] + Decimals(t[1..])
  }

  /** `%v` of an int slice: the values in decimal, space-separated, in brackets. */
  function FormatInts(t: seq<int>): (s: string)
    ensures |s| >= 2 && s[0] == '[' && s[|s| - 1] == ']'
  {
    if |t| == 0 then "[]" else "[" + Join(Decimals(t), ' ') + "]"
  }

  /** Reads a bracketed, space-separated list of integers. */
  function ParseInts(s: string): Option<seq<int>> {
    if |s| < 2 || s[0] != '[' || s[|s| - 1] != ']' then None
    else
      var inner := s[1..|s| - 1];
      if |inner| == 0 then Some([])
      else ParseAll(Split(inner, ' '))
  }

  function ParseAll(words: seq<string>): (r: Option<seq<int>>)
    ensures r.Some? ==> |r.value| == |words|
  {
    if |words| == 0 then Some([])
    else
      match ParseDecimal(words[0])
      case None => None
      case Some(v) =>
        match ParseAll(words[1..])
        case None => None
        case Some(vs) => Some([v] + vs)
  }

  /** A list of words parses when its first word and the rest do. */
  lemma ParseAllCons(words: seq<string>, v: int, vs: seq<int>)
    requires |words| > 0 && ParseDecimal(words[0]) == Some(v) && ParseAll(words[1..]) == Some(vs)
    ensures ParseAll(words) == Some([v] + vs)
  {
  }

  /** The decimal words of a slice parse when those of its tail do. */
  lemma ParseDecimalsStep(t: seq<int>)
    requires |t| > 0 && ParseAll(Decimals(t[1..])) == Some(t[1..])
    ensures ParseAll(Decimals(t)) == Some([t[0]] + t[1..])
  {
    var words := Decimals(t);
    assert words[1..] == Decimals(t[1..]);
    DecimalRoundTrip(t[0]);
    ParseAllCons(words, t[0], t[1..]);
  }

  lemma {:induction false} ParseAllDecimals(t: seq<int>)
    ensures ParseAll(Decimals(t)) == Some(t)
  {
    if |t| > 0 {
      ParseAllDecimals(t[1..]);
      ParseDecimalsStep(t);
      assert t == [t[0]] + t[1..];
    }
  }

  /** Every printed line reads back as the slice that was printed. */
  lemma FormatIntsRoundTrip(t: seq<int>)
    ensures ParseInts(FormatInts(t)) == Some(t)
  {
    if |t| > 0 {
      var words := Decimals(t);
      var s := FormatInts(t);
      assert s[1..|s| - 1] == Join(words, ' ');
      assert forall p :: 0 <= p < |words| ==> ' ' !in words[p];
      SplitJoin(words, ' ');
      ParseAllDecimals(t);
    }
  }

  /** The generator's output, one formatted tuple per line. */
  function Output(all: seq<seq<int>>): (lines: seq<string>)
    ensures |lines| == |all|
    ensures forall n :: 0 <= n < |lines| ==> ParseInts(lines[n]) == Some(all[n])
  {
    if |all| == 0 then []
    else
      FormatIntsRoundTrip(all[0]);
      [FormatInts(all[0])] + Output(all[1..])
  }

  /** A generated tuple prints as `[i j k l]`: nine characters, one digit per rating. */
  lemma TupleLine(n: int)
    requires 0 <= n < Count
    ensures var t := TupleAt(n);
            FormatInts(t) == ['[', DigitChar(t[0]), ' ', DigitChar(t[1]), ' ', DigitChar(t[2]), ' ', DigitChar(t[3]), ']']
  {
    var t := TupleAt(n);
    var words := Decimals(t);
    assert forall p :: 0 <= p < 4 ==> words[p] == [DigitChar(t[p])];
    assert words[1..][1..] == words[2..] && words[2..][1..] == words[3..];
    assert Join(words[3..], ' ') == [DigitChar(t[3])];
    assert Join(words[2..], ' ') == [DigitChar(t[2]), ' ', DigitChar(t[3])];
    assert Join(words[1..], ' ') == [DigitChar(t[1]), ' ', DigitChar(t[2]), ' ', DigitChar(t[3])];
  }
}

=== FILE: example.dfy ===
/**
 * The dataset-reduction driver built on the plain operations. For one model
 * it reads the layer names out of `<model>_0.obj`, uploads `<model>_0.fbx`,
 * and then configures, runs and downloads the reduction 99 times, with the
 * same ratio i (i = 1..99) for every layer. Any failing step panics.
 */
module Example {
  import opened Wrappers
  import opened Text
  import opened Http
  import opened FbxCheck
  import opened SdkClient
  import Polyred

  /** The marker that starts an object line in an OBJ file. */
  const ObjectMarker := "o "

  /** The layer a line names, if it is an object line. */
  function LayerOfLine(line: string): (r: Option<string>)
    ensures r.Some? <==> HasPrefix(line, ObjectMarker)
    ensures r.Some? ==> ObjectMarker + r.value == line
  {
    if HasPrefix(line, ObjectMarker) then Some(TrimPrefix(line, ObjectMarker)) else None
  }

  /** The object line naming `layer` is exactly `"o " + layer`. */
  lemma LayerOfLineInverse(line: string, layer: string)
    ensures LayerOfLine(line) == Some(layer) <==> line == ObjectMarker + layer
  {
    if line == ObjectMarker + layer {
      assert line[..|ObjectMarker|] == ObjectMarker;
      assert line[|ObjectMarker|..] == layer;
    }
  }

  /** The layers named by a sequence of lines, in line order. */
  function LayersOf(lines: seq<string>): (layers: seq<string>)
    ensures |layers| <= |lines|
  {
    if |lines| == 0 then []
    else
      var front := LayersOf(lines[..|lines| - 1]);
      match LayerOfLine(lines[|lines| - 1])
      case Some(layer) => front + [layer]
      case None => front
  }

  /** A name is a layer exactly when its object line is among the lines. */
  lemma {:induction false} LayersOfMembers(lines: seq<string>)
    ensures forall x :: x in LayersOf(lines) <==> ObjectMarker + x in lines
  {
    if |lines| > 0 {
      var front, last := lines[..|lines| - 1], lines[|lines| - 1];
      LayersOfMembers(front);
      assert lines == front + [last];
      forall x
        ensures x in LayersOf(lines) <==> ObjectMarker + x in lines
      {
        LayerOfLineInverse(last, x);
      }
    }
  }

  /** Layer extraction respects file order: the layers of a concatenation are concatenated. */
  lemma {:induction false} LayersOfAppend(a: seq<string>, b: seq<string>)
    ensures LayersOf(a + b) == LayersOf(a) + LayersOf(b)
    decreases |b|
  {
    if |b| == 0 {
      assert a + b == a;
    } else {
      var b', last := b[..|b| - 1], b[|b| - 1];
      LayersOfAppend(a, b');
      assert a + b == (a + b') + [last];
      LayersOfSnoc(a + b', last);
      assert b == b' + [last];
      LayersOfSnoc(b', last);
    }
  }

  /** One more line adds its own layers, if any, at the end. */
  lemma LayersOfSnoc(lines: seq<string>, line: string)
    ensures LayersOf(lines + [line]) == LayersOf(lines) + LayersOf([line])
  {
    assert (lines + [line])[..|lines|] == lines;
    assert [line][..0] == [];
  }

  /** A line that is not an object line contributes no layer, wherever it stands. */
  lemma OtherLinesIgnored(a: seq<string>, line: string, b: seq<string>)
    requires !HasPrefix(line, ObjectMarker)
    ensures LayersOf(a + [line] + b) == LayersOf(a + b)
  {
    LayersOfAppend(a + [line], b);
    LayersOfAppend(a, [line]);
    LayersOfAppend(a, b);
    assert LayersOf([line]) == LayersOf([]) + [] by {
      assert [line][..0] == [];
    }
  }

  /** The loop of `process` that collects layer names from the file's lines. */
  method ExtractLayers(content: string) returns (layers: seq<string>)
    ensures layers == LayersOf(Split(content, '\n'))
  {
    var all := Split(content, '\n');
    layers := [];
    var i := 0;
    while i < |all|
      invariant 0 <= i <= |all|
      invariant layers == LayersOf(all[..i])
    {
      assert all[..i + 1][..i] == all[..i];
      if HasPrefix(all[i], ObjectMarker) {
        layers := layers + [TrimPrefix(all[i], ObjectMarker)];
      }
      i := i + 1;
    }
    assert all[..|all|] == all;
  }

  /** The configuration giving every layer the same ratio `i`. */
  function UniformConfig(layers: seq<string>, i: int): (m: map<string, Float64>)
    ensures forall l :: l in m <==> l in layers
    ensures forall l :: l in m ==> m[l] == Finite(i as real)
  {
    map l | l in layers :: Finite(i as real)
  }

  /** The configurations for ratios 1..99, in order. */
  function UniformConfigs(layers: seq<string>): (configs: seq<map<string, Float64>>)
    ensures |configs| == 99
    ensures forall n :: 0 <= n < 99 ==> configs[n] == UniformConfig(layers, n + 1)
  {
    seq(99, n requires 0 <= n < 99 => UniformConfig(layers, n + 1))
  }

  /** The 99 configurations `process` builds: ratio i for every layer, i = 1..99 in order. */
  method GenerateConfigs(layers: seq<string>) returns (configs: seq<map<string, Float64>>)
    ensures |configs| == 99
    ensures forall n :: 0 <= n < |configs| ==> (forall l :: l in configs[n] <==> l in layers)
    ensures forall n :: 0 <= n < |configs| ==> (forall l :: l in configs[n] ==> configs[n][l] == Finite((n + 1) as real))
    ensures configs == UniformConfigs(layers)
  {
    configs := [];
    var i := 1;
    while i < 100
      invariant 1 <= i <= 100
      invariant |configs| == i - 1
      invariant forall n :: 0 <= n < |configs| ==> (forall l :: l in configs[n] <==> l in layers)
      invariant forall n :: 0 <= n < |configs| ==> (forall l :: l in configs[n] ==> configs[n][l] == Finite((n + 1) as real))
    {
      var m: map<string, Float64> := map[];
      var k := 0;
      while k < |layers|
        invariant 0 <= k <= |layers|
        invariant forall l :: l in m <==> l in layers[..k]
        invariant forall l :: l in m ==> m[l] == Finite(i as real)
      {
        assert layers[..k + 1] == layers[..k] + [layers[k]];
        m := m[layers[k] := Finite(i as real)];
        k := k + 1;
      }
      assert layers[..k] == layers;
      configs := configs + [m];
      i := i + 1;
    }
    forall n | 0 <= n < |configs| ensures configs[n] == UniformConfigs(layers)[n] {
      var u := UniformConfig(layers, n + 1);
      assert forall l :: l in configs[n] <==> l in u;
      assert forall l :: l in u ==> configs[n][l] == u[l];
    }
  }

  /** What one reduction round gets back from the service and the disk. */
  datatype Round = Round(config: Exchange<Payload<string>>, run: Exchange<Payload<string>>,
                         download: Exchange<seq<byte>>, disk: Disk, meanLabel: string)

  /** `if err != nil { panic(err) }`: an error ends the program. */
  function MustSucceed(t: Trace<()>): (u: Trace<()>)
    ensures u.effects == t.effects
    ensures u.outcome.Returned? <==> t.outcome.Returned? && t.outcome.result.Success?
    ensures t.outcome.Returned? && t.outcome.result.Failure? ==> u.outcome == Panicked(t.outcome.result.error)
  {
    match t.outcome
    case Returned(Failure(e)) => Trace(t.effects, Panicked(e))
    case _ => t
  }

  /** Runs `next` only when `first` returned normally. */
  function Then(first: Trace<()>, next: Trace<()>): (t: Trace<()>)
    ensures first.outcome == Returned(Success(())) ==> t == Trace(first.effects + next.effects, next.outcome)
    ensures first.outcome != Returned(Success(())) ==> t == first
  {
    if first.outcome == Returned(Success(())) then Trace(first.effects + next.effects, next.outcome) else first
  }

  /** Chaining is associative, so a run of steps may be grouped either way. */
  lemma ThenAssociative(a: Trace<()>, b: Trace<()>, c: Trace<()>)
    ensures Then(Then(a, b), c) == Then(a, Then(b, c))
  {
    if a.outcome == Returned(Success(())) {
      assert a.effects + b.effects + c.effects == a.effects + (b.effects + c.effects);
    }
  }

  /**
   * The file a round downloads to: the model path, "_", the mean ratio as
   * `%v` prints it, and ".fbx".
   */
  function DownloadPath(modelPath: string, meanLabel: string): (p: string)
    ensures HasPrefix(p, modelPath + "_") && HasSuffix(p, ".fbx")
    ensures |p| == |modelPath| + |meanLabel| + 5 && p[|modelPath| + 1..|p| - 4] == meanLabel
  {
    var p := modelPath + "_" + meanLabel + ".fbx";
    assert p[..|modelPath| + 1] == modelPath + "_";
    assert p[|p| - 4..] == ".fbx";
    assert p[|modelPath| + 1..|p| - 4] == meanLabel;
    p
  }

  /** One round: configure, then run, then download; the first failure panics. */
  function Simplify(c: Client, modelPath: string, modelId: string, ratio: map<string, Float64>, round: Round): (t: Trace<()>)
    ensures var cfg := Polyred.PolyredConfig(c, modelId, ratio, round.config);
            cfg.outcome != Returned(Success(())) ==> t == Trace(cfg.effects, Panicked(cfg.outcome.result.error))
    ensures var cfg := Polyred.PolyredConfig(c, modelId, ratio, round.config);
            var run := Polyred.PolyredRun(c, modelId, round.run);
            cfg.outcome == Returned(Success(())) && run.outcome != Returned(Success(())) ==>
              t == Trace(cfg.effects + run.effects, Panicked(run.outcome.result.error))
    ensures var cfg := Polyred.PolyredConfig(c, modelId, ratio, round.config);
            var run := Polyred.PolyredRun(c, modelId, round.run);
            var dl := Polyred.PolyredDownload(c, modelId, DownloadPath(modelPath, round.meanLabel), round.download, round.disk);
            cfg.outcome == Returned(Success(())) && run.outcome == Returned(Success(())) ==>
              t.effects == cfg.effects + run.effects + dl.effects &&
              t.outcome == if dl.outcome == Returned(Success(())) then Returned(Success(()))
                           else Panicked(dl.outcome.result.error)
    ensures t.outcome.Returned? ==> t.outcome == Returned(Success(()))
  {
    Then(MustSucceed(Polyred.PolyredConfig(c, modelId, ratio, round.config)),
      Then(MustSucceed(Polyred.PolyredRun(c, modelId, round.run)),
        MustSucceed(Polyred.PolyredDownload(c, modelId, DownloadPath(modelPath, round.meanLabel),
                                            round.download, round.disk))))
  }

  /** A round in which every exchange succeeds. */
  predicate Smooth(round: Round) {
    && round.config.Delivered? && round.config.status == StatusOK && round.config.body.Decoded?
    && round.run.Delivered? && round.run.status == StatusOK && round.run.body.Decoded?
    && round.download.Delivered? && round.disk == Disk(None, None)
  }

  /** When everything succeeds, a round sends config, run and download, in that order, then writes the file. */
  lemma SmoothRound(c: Client, modelPath: string, modelId: string, ratio: map<string, Float64>, round: Round)
    requires Smooth(round)
    requires forall k :: k in ratio ==> ratio[k].Finite?
    ensures Simplify(c, modelPath, modelId, ratio, round) ==
            Trace([Send(Polyred.ConfigRequest(c, modelId, ratio)),
                   Send(Polyred.RunRequest(c, modelId)),
                   Send(Polyred.DownloadRequest(c, modelId)),
                   CreateFile(DownloadPath(modelPath, round.meanLabel)),
                   WriteFile(DownloadPath(modelPath, round.meanLabel), round.download.body)],
                  Returned(Success(())))
  {
  }

  /** The rounds of `process`, one per configuration, stopping at the first panic. */
  function SimplifyAll(c: Client, modelPath: string, modelId: string,
                       configs: seq<map<string, Float64>>, rounds: seq<Round>): (t: Trace<()>)
    requires |rounds| == |configs|
    ensures |configs| == 0 ==> t == Trace([], Returned(Success(())))
    ensures t.outcome.Returned? ==> t.outcome == Returned(Success(()))
    ensures |configs| > 0 && Simplify(c, modelPath, modelId, configs[0], rounds[0]).outcome.Panicked? ==>
              t == Simplify(c, modelPath, modelId, configs[0], rounds[0])
    ensures |configs| > 0 && Simplify(c, modelPath, modelId, configs[0], rounds[0]).outcome.Returned? ==>
              var first := Simplify(c, modelPath, modelId, configs[0], rounds[0]);
              var later := SimplifyAll(c, modelPath, modelId, configs[1..], rounds[1..]);
              t == Trace(first.effects + later.effects, later.outcome)
  {
    if |configs| == 0 then Trace([], Returned(Success(())))
    else Then(Simplify(c, modelPath, modelId, configs[0], rounds[0]),
              SimplifyAll(c, modelPath, modelId, configs[1..], rounds[1..]))
  }

  /** The OBJ file the layers are read from and the FBX file that is uploaded. */
  function ObjPath(model: string): string { model + "_0.obj" }
  function FbxPath(model: string): (p: string)
    ensures IsFbxPath(p)
  {
    var p := model + "_0.fbx";
    AnyCaseAccepted(model + "_0", 'f', 'b', 'x');
    assert model + "_0" + ['.', 'f', 'b', 'x'] == p;
    p
  }

  /**
   * `process` after the layers are known: upload the FBX file, print the
   * model id, then one reduction round per configuration.
   */
  function UploadAndReduce(c: Client, model: string, layers: seq<string>, fbx: Result<seq<byte>, string>,
                           upload: Exchange<Payload<string>>, rounds: seq<Round>): (t: Trace<()>)
    requires |rounds| == 99
    ensures |t.effects| >= 1 && t.effects[0] == ReadFile(model + "_0.fbx")
    ensures t.outcome.Returned? ==> t.outcome == Returned(Success(()))
    ensures var up := Polyred.PolyredUpload(c, FbxPath(model), fbx, upload);
            up.outcome.result.Failure? ==> t == Trace(up.effects, Panicked(up.outcome.result.error))
    ensures var up := Polyred.PolyredUpload(c, FbxPath(model), fbx, upload);
            up.outcome.result.Success? ==>
              var id := up.outcome.result.value.data;
              var rest := SimplifyAll(c, model, id, UniformConfigs(layers), rounds);
              t == Trace(up.effects + [Print(id)] + rest.effects, rest.outcome)
  {
    var up := Polyred.PolyredUpload(c, FbxPath(model), fbx, upload);
    match up.outcome
    case Returned(Success(reply)) =>
      var rest := SimplifyAll(c, model, reply.data, UniformConfigs(layers), rounds);
      Trace(up.effects + [Print(reply.data)] + rest.effects, rest.outcome)
    case Returned(Failure(e)) => Trace(up.effects, Panicked(e))
    case Panicked(e) => Trace(up.effects, Panicked(e))
  }

  /** `process` for one model: read the layers from the OBJ file, then upload and reduce. */
  function Process(c: Client, model: string, obj: Result<string, string>,
                   fbx: Result<seq<byte>, string>, upload: Exchange<Payload<string>>,
                   rounds: seq<Round>): (t: Trace<()>)
    requires |rounds| == 99
    ensures |t.effects| >= 1 && t.effects[0] == ReadFile(model + "_0.obj")
    ensures obj.Failure? ==> t == Trace([ReadFile(model + "_0.obj")], Panicked(obj.error))
    ensures obj.Success? ==> |t.effects| >= 2 && t.effects[1] == ReadFile(model + "_0.fbx")
    ensures obj.Success? ==>
              var rest := UploadAndReduce(c, model, LayersOf(Split(obj.value, '\n')), fbx, upload, rounds);
              t == Trace([ReadFile(model + "_0.obj")] + rest.effects, rest.outcome)
    ensures t.outcome.Returned? ==> t.outcome == Returned(Success(()))
  {
    match obj
    case Failure(e) => Trace([ReadFile(ObjPath(model))], Panicked(e))
    case Success(content) =>
      var rest := UploadAndReduce(c, model, LayersOf(Split(content, '\n')), fbx, upload, rounds);
      Trace([ReadFile(ObjPath(model))] + rest.effects, rest.outcome)
  }

  /**
   * When every round goes smoothly the loop of `process` ends normally,
   * with five effects per round: three sends, the file's creation and its
   * write.
   */
  lemma {:induction false} SmoothRoundsSucceed(c: Client, modelPath: string, modelId: string,
                                               configs: seq<map<string, Float64>>, rounds: seq<Round>)
    requires |rounds| == |configs|
    requires forall i :: 0 <= i < |rounds| ==> Smooth(rounds[i]) && AllFinite(configs[i])
    ensures var t := SimplifyAll(c, modelPath, modelId, configs, rounds);
            t.outcome == Returned(Success(())) && |t.effects| == 5 * |rounds|
  {
    if |rounds| > 0 {
      SmoothRound(c, modelPath, modelId, configs[0], rounds[0]);
      SmoothRoundsSucceed(c, modelPath, modelId, configs[1..], rounds[1..]);
    }
  }

  /** Every ratio is a finite number, so the configuration marshals. */
  predicate AllFinite(ratio: map<string, Float64>) {
    forall k :: k in ratio ==> ratio[k].Finite?
  }

  /** A round whose configuration can be built and marshalled starts by sending it. */
  lemma RoundStartsWithConfig(c: Client, modelPath: string, modelId: string, ratio: map<string, Float64>, round: Round)
    requires AllFinite(ratio) && !round.config.Unbuildable?
    ensures var t := Simplify(c, modelPath, modelId, ratio, round);
            |t.effects| > 0 && t.effects[0] == Send(Polyred.ConfigRequest(c, modelId, ratio))
  {
    var cfg := Polyred.PolyredConfig(c, modelId, ratio, round.config);
    assert cfg.effects == [Send(Polyred.ConfigRequest(c, modelId, ratio))];
  }

  /** The rounds begin with the first round's effects. */
  lemma RoundsStartWithFirst(c: Client, modelPath: string, modelId: string,
                             configs: seq<map<string, Float64>>, rounds: seq<Round>)
    requires |rounds| == |configs| > 0
    ensures var first := Simplify(c, modelPath, modelId, configs[0], rounds[0]);
            var t := SimplifyAll(c, modelPath, modelId, configs, rounds);
            |first.effects| <= |t.effects| && t.effects[..|first.effects|] == first.effects
  {
  }

  /**
   * If every earlier round went smoothly, round `n` sends the `n`-th
   * configuration for the same model id (unless that request cannot be built).
   */
  lemma {:induction false} RoundSendsItsConfig(c: Client, modelPath: string, modelId: string,
                                               configs: seq<map<string, Float64>>, rounds: seq<Round>, n: nat)
    requires |rounds| == |configs| && n < |configs|
    requires forall i :: 0 <= i < n ==> Smooth(rounds[i]) && AllFinite(configs[i])
    requires AllFinite(configs[n]) && !rounds[n].config.Unbuildable?
    ensures Send(Polyred.ConfigRequest(c, modelId, configs[n])) in SimplifyAll(c, modelPath, modelId, configs, rounds).effects
  {
    var x := Send(Polyred.ConfigRequest(c, modelId, configs[n]));
    if n == 0 {
      RoundsStartWithFirst(c, modelPath, modelId, configs, rounds);
      RoundStartsWithConfig(c, modelPath, modelId, configs[0], rounds[0]);
      var first := Simplify(c, modelPath, modelId, configs[0], rounds[0]);
      assert SimplifyAll(c, modelPath, modelId, configs, rounds).effects[0] == first.effects[0];
    } else {
      var cs, rs := configs[1..], rounds[1..];
      assert forall i :: 0 <= i < n - 1 ==> rs[i] == rounds[i + 1] && cs[i] == configs[i + 1];
      assert cs[n - 1] == configs[n] && rs[n - 1] == rounds[n];
      RoundSendsItsConfig(c, modelPath, modelId, cs, rs, n - 1);
      LaterEffectsKept(c, modelPath, modelId, configs, rounds, x);
    }
  }

  /** After a smooth first round the later rounds' effects follow the first round's. */
  lemma RoundsAfterSmoothFirst(c: Client, modelPath: string, modelId: string,
                               configs: seq<map<string, Float64>>, rounds: seq<Round>)
    requires |rounds| == |configs| > 0
    requires Smooth(rounds[0]) && AllFinite(configs[0])
    ensures SimplifyAll(c, modelPath, modelId, configs, rounds).effects ==
            Simplify(c, modelPath, modelId, configs[0], rounds[0]).effects +
            SimplifyAll(c, modelPath, modelId, configs[1..], rounds[1..]).effects
  {
    SmoothRound(c, modelPath, modelId, configs[0], rounds[0]);
  }

  /** After a smooth first round every effect of the later rounds still happens. */
  lemma LaterEffectsKept(c: Client, modelPath: string, modelId: string,
                         configs: seq<map<string, Float64>>, rounds: seq<Round>, x: Effect)
    requires |rounds| == |configs| > 0
    requires Smooth(rounds[0]) && AllFinite(configs[0])
    ensures x in SimplifyAll(c, modelPath, modelId, configs[1..], rounds[1..]).effects ==>
            x in SimplifyAll(c, modelPath, modelId, configs, rounds).effects
  {
    RoundsAfterSmoothFirst(c, modelPath, modelId, configs, rounds);
  }

  /**
   * `process` configures the id the upload returned with the layers it was
   * given: round `n` sends ratio `n + 1` for exactly those layers, once the
   * rounds before it went smoothly.
   */
  lemma RoundConfiguresUploadedModel(c: Client, model: string, layers: seq<string>, fbx: Result<seq<byte>, string>,
                                     upload: Exchange<Payload<string>>, rounds: seq<Round>, n: nat)
    requires |rounds| == 99 && n < 99
    requires Polyred.PolyredUpload(c, FbxPath(model), fbx, upload).outcome.result.Success?
    requires forall i :: 0 <= i < n ==> Smooth(rounds[i])
    requires !rounds[n].config.Unbuildable?
    ensures var id := Polyred.PolyredUpload(c, FbxPath(model), fbx, upload).outcome.result.value.data;
            Send(Polyred.ConfigRequest(c, id, UniformConfig(layers, n + 1))) in
              UploadAndReduce(c, model, layers, fbx, upload, rounds).effects
  {
    var up := Polyred.PolyredUpload(c, FbxPath(model), fbx, upload);
    var id := up.outcome.result.value.data;
    var configs := UniformConfigs(layers);
    RoundSendsItsConfig(c, model, id, configs, rounds, n);
    var rest := SimplifyAll(c, model, id, configs, rounds);
    assert UploadAndReduce(c, model, layers, fbx, upload, rounds).effects == up.effects + [Print(id)] + rest.effects;
  }

  /**
   * The layers `process` configures are the "o " names of the OBJ file:
   * the first round sends ratio 1 for exactly those names to the uploaded id.
   */
  lemma FirstRoundConfiguresObjLayers(c: Client, model: string, content: string, fbx: Result<seq<byte>, string>,
                                      upload: Exchange<Payload<string>>, rounds: seq<Round>)
    requires |rounds| == 99
    requires Polyred.PolyredUpload(c, FbxPath(model), fbx, upload).outcome.result.Success?
    requires !rounds[0].config.Unbuildable?
    ensures var id := Polyred.PolyredUpload(c, FbxPath(model), fbx, upload).outcome.result.value.data;
            var ratio := UniformConfig(LayersOf(Split(content, '\n')), 1);
            && (forall l :: l in ratio <==> ObjectMarker + l in Split(content, '\n'))
            && Send(Polyred.ConfigRequest(c, id, ratio)) in Process(c, model, Success(content), fbx, upload, rounds).effects
  {
    var layers := LayersOf(Split(content, '\n'));
    LayersOfMembers(Split(content, '\n'));
    RoundConfiguresUploadedModel(c, model, layers, fbx, upload, rounds, 0);
  }
}

=== FILE: fbx.dfy ===
/**
 * The local upload precondition shared by both upload operations: the
 * model path, lower-cased, must end in ".fbx". It is checked before the
 * file is read or anything is sent.
 */
module FbxCheck {
  import opened Text

  const FbxSuffix := ".fbx"

  /** The error text both uploads return for any other path. */
  const NotFbx := "only .FBX model is supported"

  predicate IsFbxPath(path: string) {
    HasSuffix(ToLower(path), FbxSuffix)
  }

  /** The test looks only at the last four characters, ignoring ASCII case. */
  lemma IsFbxPathLastFour(path: string)
    ensures IsFbxPath(path) <==> |path| >= 4 && ToLower(path[|path| - 4..]) == FbxSuffix
  {
    if |path| >= 4 {
      ToLowerAppend(path[..|path| - 4], path[|path| - 4..]);
      assert path[..|path| - 4] + path[|path| - 4..] == path;
    }
  }

  /** Any capitalisation of ".fbx" is accepted, whatever precedes it. */
  lemma AnyCaseAccepted(stem: string, f: char, b: char, x: char)
    requires f == 'f' || f == 'F'
    requires b == 'b' || b == 'B'
    requires x == 'x' || x == 'X'
    ensures IsFbxPath(stem + ['.', f, b, x])
  {
    var path := stem + ['.', f, b, x];
    IsFbxPathLastFour(path);
    assert path[|path| - 4..] == ['.', f, b, x];
    LowerFbx(f, b, x);
  }

  /** Each capitalisation of the four suffix characters lowers to ".fbx". */
  lemma LowerFbx(f: char, b: char, x: char)
    requires f == 'f' || f == 'F'
    requires b == 'b' || b == 'B'
    requires x == 'x' || x == 'X'
    ensures ToLower(['.', f, b, x]) == FbxSuffix
  {
    var r := ToLower(['.', f, b, x]);
    assert r[0] == '.' && r[1] == 'f' && r[2] == 'b' && r[3] == 'x';
  }

  /** A name that merely contains ".fbx" earlier on is rejected. */
  lemma ContainedIsNotEnough()
    ensures !IsFbxPath("model.fbx.zip")
  {
    var zip := "model.fbx.zip";
    IsFbxPathLastFour(zip);
    assert zip[|zip| - 4..] == ".zip";
    assert ToLower(".zip")[1] == LowerChar('z') == 'z';
  }

  /** Upper case is as good as lower case. */
  lemma UpperCaseAccepted()
    ensures IsFbxPath("MODEL.FBX")
  {
    AnyCaseAccepted("MODEL", 'F', 'B', 'X');
    assert "MODEL" + ['.', 'F', 'B', 'X'] == "MODEL.FBX";
  }
}

=== FILE: find_root.dfy ===
/**
 * The session-id collector: for every user of the evaluation list, the
 * distinct roots (session ids) that user rated, one per line.
 */
module FindRoot {
  /** One evaluation record; only the fields the collector reads. */
  datatype Doc = Doc(userId: string, root: string)

  /** The roots of `uid`'s records, in list order: the reference for GetAllRating. */
  function RootsOf(e: seq<Doc>, uid: string): (roots: seq<string>)
    ensures |roots| <= |e|
    ensures forall x :: x in roots <==> exists i :: 0 <= i < |e| && e[i].userId == uid && e[i].root == x
  {
    if |e| == 0 then []
    else
      var n := |e| - 1;
      var front := RootsOf(e[..n], uid);
      assert forall i :: 0 <= i < n ==> e[..n][i] == e[i];
      if e[n].userId == uid then front + [e[n].root] else front
  }

  /** How many records `uid` has. */
  function CountOf(e: seq<Doc>, uid: string): nat {
    if |e| == 0 then 0 else (if e[0].userId == uid then 1 else 0) + CountOf(e[1..], uid)
  }

  lemma {:induction false} CountOfAppend(a: seq<Doc>, b: seq<Doc>, uid: string)
    ensures CountOf(a + b, uid) == CountOf(a, uid) + CountOf(b, uid)
  {
    if |a| == 0 {
      assert a + b == b;
    } else {
      assert (a + b)[1..] == a[1..] + b;
      CountOfAppend(a[1..], b, uid);
    }
  }

  /** A user has one root per record. */
  lemma {:induction false} RootsOfCount(e: seq<Doc>, uid: string)
    ensures |RootsOf(e, uid)| == CountOf(e, uid)
  {
    if |e| > 0 {
      var n := |e| - 1;
      RootsOfCount(e[..n], uid);
      assert e == e[..n] + [e[n]];
      CountOfAppend(e[..n], [e[n]], uid);
    }
  }

  /** `Evaluation.GetAllRating`: first the user's records, then their roots. */
  method GetAllRating(e: seq<Doc>, uid: string) returns (ratings: seq<string>)
    ensures ratings == RootsOf(e, uid)
  {
    var uEval: seq<Doc> := [];
    var i := 0;
    while i < |e|
      invariant 0 <= i <= |e|
      invariant forall d :: d in uEval ==> d.userId == uid
      invariant |uEval| == |RootsOf(e[..i], uid)|
      invariant forall p :: 0 <= p < |uEval| ==> uEval[p].root == RootsOf(e[..i], uid)[p]
    {
      assert e[..i + 1][..i] == e[..i];
      if e[i].userId == uid {
        uEval := uEval + [e[i]];
      }
      i := i + 1;
    }
    assert e[..i] == e;
    ratings := [];
    var p := 0;
    while p < |uEval|
      invariant 0 <= p <= |uEval|
      invariant ratings == RootsOf(e, uid)[..p]
    {
      assert RootsOf(e, uid)[..p + 1] == RootsOf(e, uid)[..p] + [uEval[p].root];
      ratings := ratings + [uEval[p].root];
      p := p + 1;
    }
    assert RootsOf(e, uid)[..p] == RootsOf(e, uid);
  }

  /** `allUid[e[i].UserId]++` over the list: each user with their record count. */
  function UserCounts(e: seq<Doc>): (m: map<string, int>)
    ensures forall u :: u in m <==> exists i :: 0 <= i < |e| && e[i].userId == u
    ensures forall u :: u in m ==> m[u] >= 1
  {
    if |e| == 0 then map[]
    else
      var n := |e| - 1;
      var m := UserCounts(e[..n]);
      assert forall i :: 0 <= i < n ==> e[..n][i] == e[i];
      m[e[n].userId := (if e[n].userId in m then m[e[n].userId] else 0) + 1]
  }

  /** The map counts records: every user's entry is the number of their records. */
  lemma {:induction false} UserCountsCount(e: seq<Doc>)
    ensures forall u :: u in UserCounts(e) ==> UserCounts(e)[u] == CountOf(e, u)
  {
    if |e| > 0 {
      var n := |e| - 1;
      UserCountsCount(e[..n]);
      assert e == e[..n] + [e[n]];
      forall u | u in UserCounts(e) ensures UserCounts(e)[u] == CountOf(e, u) {
        CountOfAppend(e[..n], [e[n]], u);
        if u !in UserCounts(e[..n]) {
          assert CountOf(e[..n], u) == 0 by { CountOfAbsent(e[..n], u); }
        }
      }
    }
  }

  lemma {:induction false} CountOfAbsent(e: seq<Doc>, u: string)
    requires forall i :: 0 <= i < |e| ==> e[i].userId != u
    ensures CountOf(e, u) == 0
  {
    if |e| > 0 {
      CountOfAbsent(e[1..], u);
    }
  }

  /** The distinct elements of `s`, each once. */
  function Distinct(s: seq<string>): (r: seq<string>)
    ensures forall x :: x in r <==> x in s
    ensures forall i, j :: 0 <= i < j < |r| ==> r[i] != r[j]
    ensures |r| <= |s|
  {
    if |s| == 0 then []
    else
      var n := |s| - 1;
      var front := Distinct(s[..n]);
      assert s == s[..n] + [s[n]];
      if s[n] in front then front else front + [s[n]]
  }

  /** Some record of user `u` has root `x`. */
  predicate Rated(e: seq<Doc>, u: string, x: string) {
    exists i :: 0 <= i < |e| && e[i].userId == u && e[i].root == x
  }

  /**
   * The lines written for the users, in the order the counts map is
   * walked: each user's distinct roots.
   */
  function Output(e: seq<Doc>, users: seq<string>): (lines: seq<string>)
    ensures forall x :: x in lines <==> exists u :: u in users && Rated(e, u, x)
  {
    if |users| == 0 then []
    else
      var block := Distinct(RootsOf(e, users[0]));
      var rest := Output(e, users[1..]);
      assert forall x :: x in block <==> Rated(e, users[0], x);
      assert forall u :: u in users <==> u == users[0] || u in users[1..];
      block + rest
  }

  /** A user's block lists each of their roots once. */
  lemma UserBlock(e: seq<Doc>, uid: string)
    ensures var block := Distinct(RootsOf(e, uid));
            && (forall i, j :: 0 <= i < j < |block| ==> block[i] != block[j])
            && |block| <= CountOf(e, uid)
  {
    RootsOfCount(e, uid);
  }

  /**
   * Walking every key of the counts map prints the root of every record
   * and nothing else.
   */
  lemma OutputCoversRoots(e: seq<Doc>, users: seq<string>)
    requires forall u :: u in users <==> u in UserCounts(e)
    ensures forall x :: x in Output(e, users) <==> exists i :: 0 <= i < |e| && e[i].root == x
  {
    forall x | (exists i :: 0 <= i < |e| && e[i].root == x)
      ensures x in Output(e, users)
    {
      var i :| 0 <= i < |e| && e[i].root == x;
      assert e[i].userId in UserCounts(e);
      assert e[i].userId in users && Rated(e, e[i].userId, x);
    }
  }

  /** A distinct list holds each of its elements exactly once. */
  lemma {:induction false} DistinctOnce(s: seq<string>, x: string)
    ensures multiset(Distinct(s))[x] == if x in s then 1 else 0
  {
    if |s| > 0 {
      var n := |s| - 1;
      DistinctOnce(s[..n], x);
      assert s == s[..n] + [s[n]];
    }
  }

  /** How many of the walked users have some record with root `x` (a user walked twice counts twice). */
  function RaterCount(e: seq<Doc>, users: seq<string>, x: string): (n: nat)
    ensures n <= |users|
  {
    if |users| == 0 then 0
    else (if Rated(e, users[0], x) then 1 else 0) + RaterCount(e, users[1..], x)
  }

  /**
   * Each root is printed once for every walked user who rated it: the
   * output holds `x` exactly as many times as there are such users.
   */
  lemma {:induction false} OutputCount(e: seq<Doc>, users: seq<string>, x: string)
    ensures multiset(Output(e, users))[x] == RaterCount(e, users, x)
  {
    if |users| > 0 {
      var block := Distinct(RootsOf(e, users[0]));
      OutputCount(e, users[1..], x);
      DistinctOnce(RootsOf(e, users[0]), x);
      assert x in RootsOf(e, users[0]) <==> Rated(e, users[0], x);
      assert Output(e, users) == block + Output(e, users[1..]);
    }
  }
}

=== FILE: http.dfy ===
/**
 * The HTTP and file-system surface the SDK touches, with the transport,
 * `encoding/json` and `os` abstracted to their observable outcomes.
 *
 * A JSON-returning call in the SDK goes through the same steps:
 * build the request, send it, read the body, decode it, and then (in most
 * operations) turn a non-200 status into an error carrying the decoded
 * `msg` field. `Exchange` is what the network and the server did; `Payload`
 * is what reading and decoding the body produced. An operation returns a
 * `Trace`: the effects it performed, in order, and how the Go call ended.
 */
module Http {
  import opened Wrappers

  newtype byte = x: int | 0 <= x < 256

  datatype Method = Get | Post | Put

  /** A Go float64: a finite value or one of the values `encoding/json` refuses. */
  datatype Float64 = Finite(value: real) | NaN | PosInf | NegInf

  /** The JSON documents the SDK sends: objects whose leaves are numbers. */
  datatype Json = Number(n: Float64) | Object(fields: map<string, Json>)

  /** The `encoding/json` error for a NaN or infinite number. */
  const UnsupportedValue := "json: unsupported value"

  /** Whether `json.Marshal` accepts the document: no NaN or infinity anywhere. */
  predicate Encodable(j: Json) {
    match j
    case Number(n) => n.Finite?
    case Object(fields) => forall k :: k in fields ==> Encodable(fields[k])
  }

  /** A JSON object with one number per key. */
  function NumberObject(m: map<string, Float64>): (j: Json)
    ensures j.Object? && j.fields.Keys == m.Keys
    ensures forall k :: k in m ==> j.fields[k] == Number(m[k])
    ensures Encodable(j) <==> forall k :: k in m ==> m[k].Finite?
  {
    Object(map k | k in m :: Number(m[k]))
  }

  datatype Body =
    | NoBody
    | FormFile(field: string, fileName: string, content: seq<byte>)
    | JsonDoc(doc: Json)

  datatype Credential = BasicAuth(user: string, password: string)

  /** The fixed basic-auth pair every SDK request carries. */
  const SdkCredential := BasicAuth("way", "secret-pass")

  datatype Request = Request(verb: Method, url: string, body: Body, auth: Credential)

  /** `http.NewRequest` followed by `SetBasicAuth` with the SDK credential. */
  function Authenticated(m: Method, url: string, body: Body): (r: Request)
    ensures r.verb == m && r.url == url && r.body == body
    ensures r.auth == SdkCredential
  {
    Request(m, url, body, SdkCredential)
  }

  const StatusOK := 200

  /** A decoded JSON response: the operation's fields plus the `msg` field ("" when absent). */
  datatype Reply<+T> = Reply(data: T, message: string)

  /** What reading and decoding a response body produced. */
  datatype Payload<+T> =
    | Unreadable(cause: string)
    | Malformed(cause: string)
    | Decoded(reply: Reply<T>)

  /** What the transport did with a request: not built, not delivered, or answered. */
  datatype Exchange<+B> =
    | Unbuildable(cause: string)
    | Unreachable(cause: string)
    | Delivered(status: int, body: B)

  /** How a Go call ended: it returned (a value or an error) or it panicked. */
  datatype Call<+T> = Returned(result: Result<T, string>) | Panicked(cause: string)

  datatype Effect =
    | ReadFile(path: string)
    | Send(request: Request)
    | CreateFile(path: string)                      // `os.Create`: an empty file at the path
    | WriteFile(path: string, content: seq<byte>)   // `io.Copy` into that file
    | Print(line: string)

  datatype Trace<+T> = Trace(effects: seq<Effect>, outcome: Call<T>)

  /** Whether a call sent anything over the network. */
  predicate SentAnything(effects: seq<Effect>) {
    exists i :: 0 <= i < |effects| && effects[i].Send?
  }

  /**
   * The text `fmt.Errorf(prefix + ": %w", cause)` produces; an empty prefix
   * stands for returning the cause unchanged.
   */
  function Wrap(prefix: string, cause: string): (r: string)
    ensures prefix == "" ==> r == cause
    ensures prefix != "" ==> r == prefix + ": " + cause
  {
    if prefix == "" then cause else prefix + ": " + cause
  }

  /** The error prefixes one operation uses at each step ("" = the bare cause). */
  datatype Wording = Wording(build: string, send: string, read: string, decode: string, status: string)

  const Bare := Wording("", "", "", "", "")

  /** A failed `Do` either panics or is returned, depending on the operation. */
  datatype OnSendFailure = Panic | ReturnError

  /** Whether the operation looks at the status code at all. */
  datatype StatusPolicy = Checked | Ignored

  /**
   * Decode first, then judge the status: an undecodable body is a decode
   * error whatever the status, and a decoded body with a status other than
   * 200 is an error whose text is the server's message.
   */
  function Classify<T>(status: int, body: Payload<T>, w: Wording, policy: StatusPolicy): (r: Result<Reply<T>, string>)
    ensures body.Unreadable? ==> r == Failure(Wrap(w.read, body.cause))
    ensures body.Malformed? ==> r == Failure(Wrap(w.decode, body.cause))
    ensures body.Decoded? ==> (r.Failure? <==> policy.Checked? && status != StatusOK)
    ensures body.Decoded? && r.Failure? ==> r.error == Wrap(w.status, body.reply.message)
    ensures r.Success? ==> body == Decoded(r.value)
  {
    match body
    case Unreadable(cause) => Failure(Wrap(w.read, cause))
    case Malformed(cause) => Failure(Wrap(w.decode, cause))
    case Decoded(reply) =>
      if policy.Checked? && status != StatusOK then Failure(Wrap(w.status, reply.message))
      else Success(reply)
  }

  /** One JSON round trip for an already built request. */
  function Exchanged<T>(req: Request, ex: Exchange<Payload<T>>, w: Wording, onSend: OnSendFailure,
                        policy: StatusPolicy): (t: Trace<Reply<T>>)
    ensures t.effects == if ex.Unbuildable? then [] else [Send(req)]
    ensures ex.Unbuildable? ==> t.outcome == Returned(Failure(Wrap(w.build, ex.cause)))
    ensures ex.Unreachable? && onSend.Panic? ==> t.outcome == Panicked(ex.cause)
    ensures ex.Unreachable? && onSend.ReturnError? ==> t.outcome == Returned(Failure(Wrap(w.send, ex.cause)))
    ensures ex.Delivered? ==> t.outcome == Returned(Classify(ex.status, ex.body, w, policy))
  {
    match ex
    case Unbuildable(cause) => Trace([], Returned(Failure(Wrap(w.build, cause))))
    case Unreachable(cause) =>
      Trace([Send(req)], if onSend.Panic? then Panicked(cause) else Returned(Failure(Wrap(w.send, cause))))
    case Delivered(status, body) => Trace([Send(req)], Returned(Classify(status, body, w, policy)))
  }

  /** What `os.Create` and `io.Copy` did with the download target. */
  datatype Disk = Disk(createError: Option<string>, copyError: Option<string>)

  /**
   * A download: the body is copied into a freshly created file whatever the
   * status; neither the status nor the content is examined.
   */
  function Streamed(req: Request, path: string, ex: Exchange<seq<byte>>, disk: Disk): (t: Trace<()>)
    ensures ex.Unbuildable? ==> t == Trace([], Returned(Failure(ex.cause)))
    ensures ex.Unreachable? ==> t == Trace([Send(req)], Returned(Failure(ex.cause)))
    ensures ex.Delivered? && disk.createError.Some? ==> t == Trace([Send(req)], Returned(Failure(disk.createError.value)))
    ensures ex.Delivered? && disk.createError.None? && disk.copyError.Some? ==>
              t == Trace([Send(req), CreateFile(path)], Returned(Failure(disk.copyError.value)))
    ensures ex.Delivered? && disk == Disk(None, None) ==>
              t == Trace([Send(req), CreateFile(path), WriteFile(path, ex.body)], Returned(Success(())))
  {
    match ex
    case Unbuildable(cause) => Trace([], Returned(Failure(cause)))
    case Unreachable(cause) => Trace([Send(req)], Returned(Failure(cause)))
    case Delivered(_, content) =>
      match disk.createError
      case Some(e) => Trace([Send(req)], Returned(Failure(e)))
      case None =>
        match disk.copyError
        case Some(e) => Trace([Send(req), CreateFile(path)], Returned(Failure(e)))
        case None => Trace([Send(req), CreateFile(path), WriteFile(path, content)], Returned(Success(())))
  }

  /** Keeps the effects and the error, forgets the returned value (a Go call returning only `error`). */
  function ErrorOnly<T>(t: Trace<T>): (u: Trace<()>)
    ensures u.effects == t.effects
    ensures t.outcome.Panicked? <==> u.outcome.Panicked?
    ensures t.outcome.Panicked? ==> u.outcome.cause == t.outcome.cause
    ensures t.outcome.Returned? ==> (u.outcome.result.Success? <==> t.outcome.result.Success?)
    ensures t.outcome.Returned? && t.outcome.result.Failure? ==> u.outcome.result.error == t.outcome.result.error
  {
    match t.outcome
    case Panicked(cause) => Trace(t.effects, Panicked(cause))
    case Returned(Success(_)) => Trace(t.effects, Returned(Success(())))
    case Returned(Failure(e)) => Trace(t.effects, Returned(Failure(e)))
  }
}

=== FILE: polyred.dfy ===
/**
 * The plain ("polyred") operations: upload a model, configure per-layer
 * reduction ratios, run the reduction, download the result. Config and Run
 * turn a status other than 200 into an error that prefixes the server's
 * message; Upload never looks at the status, and Download never looks at
 * the response at all. No operation panics.
 */
module Polyred {
  import opened Wrappers
  import opened Http
  import opened Routes
  import opened FbxCheck
  import opened SdkClient
  import ProPolyred

  const ConfigWording := Wording("", "", "", "", "failed to send configuration")
  const RunWording := Wording("", "", "", "", "failed to run")

  /** The key the ratio map is wrapped under in the configuration body. */
  const PercentKey := "percent"

  /** The configuration document: the ratio map as the only field, under "percent". */
  function ConfigDoc(ratio: map<string, Float64>): (j: Json)
    ensures j.Object? && j.fields.Keys == {PercentKey}
    ensures j.fields[PercentKey] == NumberObject(ratio)
  {
    Object(map[PercentKey := NumberObject(ratio)])
  }

  /** Reads the ratio map back out of a configuration body, if it has that shape. */
  function RatiosOf(b: Body): Option<map<string, Float64>> {
    if b.JsonDoc? && b.doc.Object? && b.doc.fields.Keys == {PercentKey}
       && b.doc.fields[PercentKey].Object?
       && (forall k :: k in b.doc.fields[PercentKey].fields ==> b.doc.fields[PercentKey].fields[k].Number?)
    then
      var inner := b.doc.fields[PercentKey].fields;
      Some(map k | k in inner :: inner[k].n)
    else None
  }

  function UploadRequest(c: Client, path: string, content: seq<byte>): (r: Request)
    ensures r.verb == Post && r.url == c.endpoint + "/api/v1/polyred/upload"
    ensures r.body == FormFile("file", path, content) && r.auth == SdkCredential
  {
    Authenticated(Post, Url(c.endpoint, Upload), FormFile("file", path, content))
  }

  function ConfigRequest(c: Client, model: string, ratio: map<string, Float64>): (r: Request)
    ensures r.verb == Post && r.url == c.endpoint + "/api/v1/polyred/config/" + model
    ensures r.body == JsonDoc(ConfigDoc(ratio)) && r.auth == SdkCredential
  {
    Authenticated(Post, Url(c.endpoint, Config(model)), JsonDoc(ConfigDoc(ratio)))
  }

  function RunRequest(c: Client, model: string): (r: Request)
    ensures r.verb == Post && r.url == c.endpoint + "/api/v1/polyred/run/" + model
    ensures r.body == NoBody && r.auth == SdkCredential
  {
    Authenticated(Post, Url(c.endpoint, Run(model)), NoBody)
  }

  function DownloadRequest(c: Client, model: string): (r: Request)
    ensures r.verb == Get && r.url == c.endpoint + "/api/v1/polyred/download/" + model
    ensures r.body == NoBody && r.auth == SdkCredential
  {
    Authenticated(Get, Url(c.endpoint, Download(model)), NoBody)
  }

  /** Uploads a model file and obtains its model id; the status is never examined. */
  function PolyredUpload(c: Client, path: string, file: Result<seq<byte>, string>,
                         ex: Exchange<Payload<string>>): (t: Trace<Reply<string>>)
    ensures !IsFbxPath(path) ==> t == Trace([], Returned(Failure(NotFbx)))
    ensures IsFbxPath(path) ==> |t.effects| >= 1 && t.effects[0] == ReadFile(path)
    ensures SentAnything(t.effects) ==> IsFbxPath(path) && file.Success? && !ex.Unbuildable?
    ensures IsFbxPath(path) && file.Failure? ==> t == Trace([ReadFile(path)], Returned(Failure(file.error)))
    ensures IsFbxPath(path) && file.Success? && !ex.Unbuildable? ==>
              t.effects == [ReadFile(path), Send(UploadRequest(c, path, file.value))]
    ensures t.outcome.Returned?
    ensures IsFbxPath(path) && file.Success? && ex.Unbuildable? ==> t == Trace([ReadFile(path)], Returned(Failure(ex.cause)))
    ensures IsFbxPath(path) && file.Success? && ex.Unreachable? ==> t.outcome == Returned(Failure(ex.cause))
    ensures IsFbxPath(path) && file.Success? && ex.Delivered? && ex.body.Unreadable? ==>
              t.outcome == Returned(Failure(ex.body.cause))
    ensures IsFbxPath(path) && file.Success? && ex.Delivered? && ex.body.Decoded? ==>
              t.outcome == Returned(Success(ex.body.reply))
    ensures IsFbxPath(path) && file.Success? && ex.Delivered? && ex.body.Malformed? ==>
              t.outcome == Returned(Failure(ex.body.cause))
  {
    if !IsFbxPath(path) then Trace([], Returned(Failure(NotFbx)))
    else
      match file
      case Failure(e) => Trace([ReadFile(path)], Returned(Failure(e)))
      case Success(content) =>
        var sent := Exchanged(UploadRequest(c, path, content), ex, Bare, ReturnError, Ignored);
        Trace([ReadFile(path)] + sent.effects, sent.outcome)
  }

  /**
   * Sends a (re)configuration: a map from layer name to target ratio,
   * wrapped under "percent". It may be sent any number of times.
   */
  function PolyredConfig(c: Client, model: string, ratio: map<string, Float64>,
                         ex: Exchange<Payload<string>>): (t: Trace<()>)
    ensures (exists k :: k in ratio && !ratio[k].Finite?) ==> t == Trace([], Returned(Failure(UnsupportedValue)))
    ensures (forall k :: k in ratio ==> ratio[k].Finite?) ==>
              t.effects == if ex.Unbuildable? then [] else [Send(ConfigRequest(c, model, ratio))]
    ensures t.outcome.Returned?
    ensures (forall k :: k in ratio ==> ratio[k].Finite?) && !ex.Delivered? ==> t.outcome == Returned(Failure(ex.cause))
    ensures (forall k :: k in ratio ==> ratio[k].Finite?) && ex.Delivered? && ex.body.Unreadable? ==>
              t.outcome == Returned(Failure(ex.body.cause))
    ensures (forall k :: k in ratio ==> ratio[k].Finite?) && ex.Delivered? && ex.body.Decoded? ==>
              t.outcome == Returned(if ex.status == StatusOK then Success(())
                                    else Failure("failed to send configuration" + ": " + ex.body.reply.message))
    ensures (forall k :: k in ratio ==> ratio[k].Finite?) && ex.Delivered? && ex.body.Malformed? ==>
              t.outcome == Returned(Failure(ex.body.cause))
  {
    if !Encodable(ConfigDoc(ratio)) then Trace([], Returned(Failure(UnsupportedValue)))
    else ErrorOnly(Exchanged(ConfigRequest(c, model, ratio), ex, ConfigWording, ReturnError, Checked))
  }

  /** Runs the reduction of a configured model; blocks until the server answers. */
  function PolyredRun(c: Client, model: string, ex: Exchange<Payload<string>>): (t: Trace<()>)
    ensures t.effects == if ex.Unbuildable? then [] else [Send(RunRequest(c, model))]
    ensures t.outcome.Returned?
    ensures !ex.Delivered? ==> t.outcome == Returned(Failure(ex.cause))
    ensures ex.Delivered? && ex.body.Unreadable? ==> t.outcome == Returned(Failure(ex.body.cause))
    ensures ex.Delivered? && ex.body.Decoded? ==>
              t.outcome == Returned(if ex.status == StatusOK then Success(())
                                    else Failure("failed to run" + ": " + ex.body.reply.message))
    ensures ex.Delivered? && ex.body.Malformed? ==> t.outcome == Returned(Failure(ex.body.cause))
  {
    ErrorOnly(Exchanged(RunRequest(c, model), ex, RunWording, ReturnError, Checked))
  }

  /** Downloads the reduced model to `path`, whatever the response says. */
  function PolyredDownload(c: Client, model: string, path: string,
                           ex: Exchange<seq<byte>>, disk: Disk): (t: Trace<()>)
    ensures ex.Unbuildable? ==> t == Trace([], Returned(Failure(ex.cause)))
    ensures ex.Unreachable? ==> t == Trace([Send(DownloadRequest(c, model))], Returned(Failure(ex.cause)))
    ensures ex.Delivered? && disk.createError.Some? ==>
              t == Trace([Send(DownloadRequest(c, model))], Returned(Failure(disk.createError.value)))
    ensures ex.Delivered? && disk.createError.None? && disk.copyError.Some? ==>
              t == Trace([Send(DownloadRequest(c, model)), CreateFile(path)], Returned(Failure(disk.copyError.value)))
    ensures ex.Delivered? && disk == Disk(None, None) ==>
              t == Trace([Send(DownloadRequest(c, model)), CreateFile(path), WriteFile(path, ex.body)],
                         Returned(Success(())))
    ensures t.outcome.Returned?
  {
    Streamed(DownloadRequest(c, model), path, ex, disk)
  }

  /** The configuration body gives back exactly the ratio map it wraps. */
  lemma ConfigBodyRoundTrip(c: Client, model: string, ratio: map<string, Float64>)
    ensures RatiosOf(ConfigRequest(c, model, ratio).body) == Some(ratio)
  {
    var inner := NumberObject(ratio).fields;
    assert forall k :: k in inner ==> inner[k] == Number(ratio[k]);
    var back := map k | k in inner :: inner[k].n;
    assert back == ratio;
  }

  /**
   * Reconfiguring the same model always targets the same URL with POST;
   * two configuration requests coincide exactly when their ratio maps do.
   */
  lemma ReconfigurationTargetsSameUrl(c: Client, model: string, r1: map<string, Float64>, r2: map<string, Float64>)
    ensures ConfigRequest(c, model, r1).url == ConfigRequest(c, model, r2).url
    ensures ConfigRequest(c, model, r1).verb == Post
    ensures ConfigRequest(c, model, r1) == ConfigRequest(c, model, r2) <==> r1 == r2
  {
    if ConfigRequest(c, model, r1) == ConfigRequest(c, model, r2) {
      ConfigBodyRoundTrip(c, model, r1);
      ConfigBodyRoundTrip(c, model, r2);
    }
  }

  /** The plain upload never looks at the status code. */
  lemma UploadIgnoresStatus(c: Client, path: string, file: Result<seq<byte>, string>,
                            s1: int, s2: int, body: Payload<string>)
    ensures PolyredUpload(c, path, file, Delivered(s1, body)) == PolyredUpload(c, path, file, Delivered(s2, body))
  {
  }

  /**
   * The two uploads share the local check but part ways on the network:
   * the session upload panics on an undelivered request and rejects a
   * non-200 status, the plain upload returns both as ordinary results.
   */
  lemma UploadVariantsDiffer(c: Client, path: string, content: seq<byte>, cause: string, status: int, reply: Reply<string>)
    requires IsFbxPath(path)
    requires status != StatusOK
    ensures ProPolyred.Upload(c, path, Success(content), Unreachable(cause)).outcome == Panicked(cause)
    ensures PolyredUpload(c, path, Success(content), Unreachable(cause)).outcome == Returned(Failure(cause))
    ensures ProPolyred.Upload(c, path, Success(content), Delivered(status, Decoded(reply))).outcome ==
            Returned(Failure(reply.message))
    ensures PolyredUpload(c, path, Success(content), Delivered(status, Decoded(reply))).outcome ==
            Returned(Success(reply))
  {
  }
}

=== FILE: propolyred.dfy ===
/**
 * The session-based ("pro") operations of the SDK. Each builds one request
 * on the client's endpoint, hands it to the transport, and classifies the
 * answer: decode the body first, then turn a status other than 200 into an
 * error whose text is the server's `msg`. Upload and Copy panic when the
 * request cannot be delivered; the others return that failure as an error.
 * Download copies the body to a file without looking at it.
 */
module ProPolyred {
  import opened Wrappers
  import opened Http
  import opened Routes
  import opened FbxCheck
  import opened SdkClient

  /** The decoded fields of a run: the new phase ids and the server's estimated optimum. */
  datatype RunData = RunData(phases: seq<string>, assumedOptimal: Float64)

  const RunWording := Wording("failed to create request", "failed to send the request",
                              "failed to read response body", "failed to parse the run output", "")

  const EvaluateWording := Wording("failed to create request", "failed to send request",
                                   "failed to parse response body", "failed to parse evaluate output", "")

  const MarshalRatingPrefix := "failed to marshal rating"

  function UploadRequest(c: Client, path: string, content: seq<byte>): (r: Request)
    ensures r.verb == Post && r.url == c.endpoint + "/api/v1/propolyred/upload"
    ensures r.body == FormFile("file", path, content) && r.auth == SdkCredential
  {
    Authenticated(Post, Url(c.endpoint, ProUpload), FormFile("file", path, content))
  }

  function RunRequest(c: Client, session: string): (r: Request)
    ensures r.verb == Post && r.url == c.endpoint + "/api/v1/propolyred/run/" + session
    ensures r.body == NoBody && r.auth == SdkCredential
  {
    Authenticated(Post, Url(c.endpoint, ProRun(session)), NoBody)
  }

  function DownloadRequest(c: Client, session: string, phase: string): (r: Request)
    ensures r.verb == Get && r.url == c.endpoint + "/api/v1/propolyred/download/" + session + "/" + phase
    ensures r.body == NoBody && r.auth == SdkCredential
  {
    Authenticated(Get, Url(c.endpoint, ProDownload(session, phase)), NoBody)
  }

  function InspectRequest(c: Client, session: string): (r: Request)
    ensures r.verb == Get && r.url == c.endpoint + "/api/v1/propolyred/evaluate/" + session
    ensures r.body == NoBody && r.auth == SdkCredential
  {
    Authenticated(Get, Url(c.endpoint, ProEvaluate(session)), NoBody)
  }

  function EvaluateRequest(c: Client, session: string, rating: map<string, Float64>): (r: Request)
    ensures r.verb == Put && r.url == c.endpoint + "/api/v1/propolyred/evaluate/" + session
    ensures r.body == JsonDoc(NumberObject(rating)) && r.auth == SdkCredential
  {
    Authenticated(Put, Url(c.endpoint, ProEvaluate(session)), JsonDoc(NumberObject(rating)))
  }

  function ResetRequest(c: Client, session: string): (r: Request)
    ensures r.verb == Post && r.url == c.endpoint + "/api/v1/propolyred/reset/" + session
    ensures r.body == NoBody && r.auth == SdkCredential
  {
    Authenticated(Post, Url(c.endpoint, ProReset(session)), NoBody)
  }

  function CopyRequest(c: Client, session: string): (r: Request)
    ensures r.verb == Post && r.url == c.endpoint + "/api/v1/propolyred/copy/" + session
    ensures r.body == NoBody && r.auth == SdkCredential
  {
    Authenticated(Post, Url(c.endpoint, ProCopy(session)), NoBody)
  }

  /**
   * Uploads a model file and obtains the root session id. `file` is what
   * reading `path` from disk gave; it is consulted only once the suffix
   * test has passed.
   */
  function Upload(c: Client, path: string, file: Result<seq<byte>, string>,
                  ex: Exchange<Payload<string>>): (t: Trace<Reply<string>>)
    ensures !IsFbxPath(path) ==> t == Trace([], Returned(Failure(NotFbx)))
    ensures IsFbxPath(path) ==> |t.effects| >= 1 && t.effects[0] == ReadFile(path)
    ensures SentAnything(t.effects) ==> IsFbxPath(path) && file.Success? && !ex.Unbuildable?
    ensures IsFbxPath(path) && file.Failure? ==> t == Trace([ReadFile(path)], Returned(Failure(file.error)))
    ensures IsFbxPath(path) && file.Success? && !ex.Unbuildable? ==>
              t.effects == [ReadFile(path), Send(UploadRequest(c, path, file.value))]
    ensures IsFbxPath(path) && file.Success? && ex.Unbuildable? ==> t == Trace([ReadFile(path)], Returned(Failure(ex.cause)))
    ensures IsFbxPath(path) && file.Success? && ex.Unreachable? ==> t.outcome == Panicked(ex.cause)
    ensures IsFbxPath(path) && file.Success? && ex.Delivered? && ex.body.Unreadable? ==>
              t.outcome == Returned(Failure(ex.body.cause))
    ensures IsFbxPath(path) && file.Success? && ex.Delivered? && ex.body.Decoded? ==>
              t.outcome == Returned(if ex.status == StatusOK then Success(ex.body.reply)
                                    else Failure(ex.body.reply.message))
    ensures IsFbxPath(path) && file.Success? && ex.Delivered? && ex.body.Malformed? ==>
              t.outcome == Returned(Failure(ex.body.cause))
  {
    if !IsFbxPath(path) then Trace([], Returned(Failure(NotFbx)))
    else
      match file
      case Failure(e) => Trace([ReadFile(path)], Returned(Failure(e)))
      case Success(content) =>
        var sent := Exchanged(UploadRequest(c, path, content), ex, Bare, Panic, Checked);
        Trace([ReadFile(path)] + sent.effects, sent.outcome)
  }

  /** Runs the configured simplification of a session and returns the new phases. */
  function Run(c: Client, session: string, ex: Exchange<Payload<RunData>>): (t: Trace<Reply<RunData>>)
    ensures t.effects == if ex.Unbuildable? then [] else [Send(RunRequest(c, session))]
    ensures ex.Unbuildable? ==> t.outcome == Returned(Failure("failed to create request" + ": " + ex.cause))
    ensures ex.Unreachable? ==> t.outcome == Returned(Failure("failed to send the request" + ": " + ex.cause))
    ensures ex.Delivered? && ex.body.Unreadable? ==>
              t.outcome == Returned(Failure("failed to read response body" + ": " + ex.body.cause))
    ensures ex.Delivered? && ex.body.Malformed? ==>
              t.outcome == Returned(Failure("failed to parse the run output" + ": " + ex.body.cause))
    ensures ex.Delivered? && ex.body.Decoded? ==>
              t.outcome == Returned(if ex.status == StatusOK then Success(ex.body.reply)
                                    else Failure(ex.body.reply.message))
  {
    Exchanged(RunRequest(c, session), ex, RunWording, ReturnError, Checked)
  }

  /** Downloads one phase of a session to `path`, whatever the response says. */
  function Download(c: Client, session: string, phase: string, path: string,
                    ex: Exchange<seq<byte>>, disk: Disk): (t: Trace<()>)
    ensures ex.Unbuildable? ==> t == Trace([], Returned(Failure(ex.cause)))
    ensures ex.Unreachable? ==> t == Trace([Send(DownloadRequest(c, session, phase))], Returned(Failure(ex.cause)))
    ensures ex.Delivered? && disk.createError.Some? ==>
              t == Trace([Send(DownloadRequest(c, session, phase))], Returned(Failure(disk.createError.value)))
    ensures ex.Delivered? && disk.createError.None? && disk.copyError.Some? ==>
              t == Trace([Send(DownloadRequest(c, session, phase)), CreateFile(path)],
                         Returned(Failure(disk.copyError.value)))
    ensures ex.Delivered? && disk == Disk(None, None) ==>
              t == Trace([Send(DownloadRequest(c, session, phase)), CreateFile(path), WriteFile(path, ex.body)],
                         Returned(Success(())))
    ensures t.outcome.Returned?
  {
    Streamed(DownloadRequest(c, session, phase), path, ex, disk)
  }

  /** The phase ids of a session that have not been rated yet. */
  function Inspect(c: Client, session: string, ex: Exchange<Payload<seq<string>>>): (t: Trace<Reply<seq<string>>>)
    ensures t.effects == if ex.Unbuildable? then [] else [Send(InspectRequest(c, session))]
    ensures ex.Unbuildable? ==> t.outcome == Returned(Failure(ex.cause))
    ensures ex.Unreachable? ==> t.outcome == Returned(Failure(ex.cause))
    ensures ex.Delivered? && ex.body.Unreadable? ==> t.outcome == Returned(Failure(ex.body.cause))
    ensures ex.Delivered? && ex.body.Malformed? ==> t.outcome == Returned(Failure(ex.body.cause))
    ensures ex.Delivered? && ex.body.Decoded? ==>
              t.outcome == Returned(if ex.status == StatusOK then Success(ex.body.reply)
                                    else Failure(ex.body.reply.message))
  {
    Exchanged(InspectRequest(c, session), ex, Bare, ReturnError, Checked)
  }

  /**
   * Submits ratings for phases of a session. The ratings are marshalled
   * first; a NaN or infinite rating fails before anything is sent.
   */
  function Evaluate(c: Client, session: string, rating: map<string, Float64>,
                    ex: Exchange<Payload<()>>): (t: Trace<()>)
    ensures (exists k :: k in rating && !rating[k].Finite?) ==>
              t == Trace([], Returned(Failure(MarshalRatingPrefix + ": " + UnsupportedValue)))
    ensures (forall k :: k in rating ==> rating[k].Finite?) ==>
              t.effects == if ex.Unbuildable? then [] else [Send(EvaluateRequest(c, session, rating))]
    ensures (forall k :: k in rating ==> rating[k].Finite?) && ex.Unbuildable? ==>
              t.outcome == Returned(Failure("failed to create request" + ": " + ex.cause))
    ensures (forall k :: k in rating ==> rating[k].Finite?) && ex.Unreachable? ==>
              t.outcome == Returned(Failure("failed to send request" + ": " + ex.cause))
    ensures (forall k :: k in rating ==> rating[k].Finite?) && ex.Delivered? && ex.body.Unreadable? ==>
              t.outcome == Returned(Failure("failed to parse response body" + ": " + ex.body.cause))
    ensures (forall k :: k in rating ==> rating[k].Finite?) && ex.Delivered? && ex.body.Malformed? ==>
              t.outcome == Returned(Failure("failed to parse evaluate output" + ": " + ex.body.cause))
    ensures (forall k :: k in rating ==> rating[k].Finite?) && ex.Delivered? && ex.body.Decoded? ==>
              t.outcome == Returned(if ex.status == StatusOK then Success(()) else Failure(ex.body.reply.message))
  {
    if !Encodable(NumberObject(rating)) then
      Trace([], Returned(Failure(Wrap(MarshalRatingPrefix, UnsupportedValue))))
    else
      ErrorOnly(Exchanged(EvaluateRequest(c, session, rating), ex, EvaluateWording, ReturnError, Checked))
  }

  /** Resets a session; the reply carries the (same) session id. */
  function Reset(c: Client, session: string, ex: Exchange<Payload<string>>): (t: Trace<Reply<string>>)
    ensures t.effects == if ex.Unbuildable? then [] else [Send(ResetRequest(c, session))]
    ensures ex.Unbuildable? ==> t.outcome == Returned(Failure(ex.cause))
    ensures ex.Unreachable? ==> t.outcome == Returned(Failure(ex.cause))
    ensures ex.Delivered? && ex.body.Unreadable? ==> t.outcome == Returned(Failure(ex.body.cause))
    ensures ex.Delivered? && ex.body.Malformed? ==> t.outcome == Returned(Failure(ex.body.cause))
    ensures ex.Delivered? && ex.body.Decoded? ==>
              t.outcome == Returned(if ex.status == StatusOK then Success(ex.body.reply)
                                    else Failure(ex.body.reply.message))
  {
    Exchanged(ResetRequest(c, session), ex, Bare, ReturnError, Checked)
  }

  /** Copies a session; the reply carries the new session id. */
  function Copy(c: Client, session: string, ex: Exchange<Payload<string>>): (t: Trace<Reply<string>>)
    ensures t.effects == if ex.Unbuildable? then [] else [Send(CopyRequest(c, session))]
    ensures ex.Unbuildable? ==> t.outcome == Returned(Failure(ex.cause))
    ensures ex.Unreachable? ==> t.outcome == Panicked(ex.cause)
    ensures ex.Delivered? && ex.body.Unreadable? ==> t.outcome == Returned(Failure(ex.body.cause))
    ensures ex.Delivered? && ex.body.Malformed? ==> t.outcome == Returned(Failure(ex.body.cause))
    ensures ex.Delivered? && ex.body.Decoded? ==>
              t.outcome == Returned(if ex.status == StatusOK then Success(ex.body.reply)
                                    else Failure(ex.body.reply.message))
  {
    Exchanged(CopyRequest(c, session), ex, Bare, Panic, Checked)
  }

  /** Inspect and Evaluate address the same URL and differ only in method (and body). */
  lemma InspectEvaluateShareUrl(c: Client, session: string, rating: map<string, Float64>)
    ensures InspectRequest(c, session).url == EvaluateRequest(c, session, rating).url
    ensures InspectRequest(c, session).url == c.endpoint + "/api/v1/propolyred/evaluate/" + session
    ensures InspectRequest(c, session).verb == Get && EvaluateRequest(c, session, rating).verb == Put
  {
  }

  /**
   * Run, Reset, Copy and Inspect/Evaluate on one session, and downloads of
   * different phases, never share a URL.
   */
  lemma SessionUrlsDistinct(c: Client, session: string, phase1: string, phase2: string)
    ensures RunRequest(c, session).url != ResetRequest(c, session).url
    ensures RunRequest(c, session).url != CopyRequest(c, session).url
    ensures ResetRequest(c, session).url != CopyRequest(c, session).url
    ensures RunRequest(c, session).url != InspectRequest(c, session).url
    ensures '/' !in session && phase1 != phase2 ==>
              DownloadRequest(c, session, phase1).url != DownloadRequest(c, session, phase2).url
  {
    var e := c.endpoint;
    if Url(e, ProRun(session)) == Url(e, ProReset(session)) { UrlInjective(e, ProRun(session), ProReset(session)); }
    if Url(e, ProRun(session)) == Url(e, ProCopy(session)) { UrlInjective(e, ProRun(session), ProCopy(session)); }
    if Url(e, ProReset(session)) == Url(e, ProCopy(session)) { UrlInjective(e, ProReset(session), ProCopy(session)); }
    if Url(e, ProRun(session)) == Url(e, ProEvaluate(session)) { UrlInjective(e, ProRun(session), ProEvaluate(session)); }
    if '/' !in session && phase1 != phase2 && Url(e, ProDownload(session, phase1)) == Url(e, ProDownload(session, phase2)) {
      UrlInjective(e, ProDownload(session, phase1), ProDownload(session, phase2));
    }
  }

  /**
   * When the request cannot be delivered, Upload and Copy panic while Run,
   * Inspect, Evaluate, Reset and Download return the failure as an error.
   */
  lemma UndeliveredPolicy(c: Client, session: string, phase: string, path: string, content: seq<byte>,
                          rating: map<string, Float64>, disk: Disk, cause: string)
    requires forall k :: k in rating ==> rating[k].Finite?
    ensures IsFbxPath(path) ==> Upload(c, path, Success(content), Unreachable(cause)).outcome.Panicked?
    ensures Copy(c, session, Unreachable(cause)).outcome.Panicked?
    ensures Run(c, session, Unreachable(cause)).outcome.Returned?
    ensures Inspect(c, session, Unreachable(cause)).outcome.Returned?
    ensures Evaluate(c, session, rating, Unreachable(cause)).outcome.Returned?
    ensures Reset(c, session, Unreachable(cause)).outcome.Returned?
    ensures Download(c, session, phase, path, Unreachable(cause), disk).outcome.Returned?
  {
  }

  /** The status of a download never matters: only the body and the disk do. */
  lemma DownloadIgnoresStatus(c: Client, session: string, phase: string, path: string,
                              s1: int, s2: int, content: seq<byte>, disk: Disk)
    ensures Download(c, session, phase, path, Delivered(s1, content), disk) ==
            Download(c, session, phase, path, Delivered(s2, content), disk)
  {
  }

  /**
   * Decoding comes before the status check: when the body does not decode,
   * the server's message is never surfaced, whatever the status.
   */
  lemma MalformedHidesStatus(c: Client, session: string, s1: int, s2: int, cause: string)
    ensures Run(c, session, Delivered(s1, Malformed(cause))) == Run(c, session, Delivered(s2, Malformed(cause)))
    ensures Inspect(c, session, Delivered(s1, Malformed(cause))) == Inspect(c, session, Delivered(s2, Malformed(cause)))
    ensures Reset(c, session, Delivered(s1, Malformed(cause))) == Reset(c, session, Delivered(s2, Malformed(cause)))
    ensures Copy(c, session, Delivered(s1, Malformed(cause))) == Copy(c, session, Delivered(s2, Malformed(cause)))
  {
  }
}

=== FILE: rating_dist.dfy ===
/**
 * The rating-distribution export. A CSV of upload times is read through a
 * small scanner that maps header names to column indices; model keys are
 * pulled out of the `path` column. For each chosen session the rated
 * variants are stable-sorted by upload time, negative ratings are dropped,
 * and the kept rows are numbered into iterations of four.
 */
module RatingDist {
  import opened Wrappers
  import opened Text

  // ---------------------------------------------------------------------
  // The CSV scanner

  /** One `csv.Reader.Read` result: the record and whether an error came with it. */
  datatype Read = Read(record: seq<string>, failed: bool)

  /** What `Read` keeps returning once the input is exhausted (io.EOF). */
  const EndOfInput := Read([], true)

  function NextRead(pending: seq<Read>): (Read, seq<Read>) {
    if |pending| == 0 then (EndOfInput, []) else (pending[0], pending[1..])
  }

  /** Reader (None = nil), header name -> column index, and the row last read. */
  datatype Scanner = Scanner(reader: Option<seq<Read>>, head: map<string, int>, row: seq<string>)

  /** `Scanner{}`: nil reader, nil map, nil row. */
  const ZeroScanner := Scanner(None, map[], [])

  /**
   * Column index of every header name. The header is walked left to right
   * and each name is (re)assigned its index, so a repeated name keeps the
   * index of its last occurrence.
   */
  function HeaderIndex(header: seq<string>): (m: map<string, int>)
    ensures forall name :: name in m <==> name in header
    ensures forall name :: name in m ==> 0 <= m[name] < |header| && header[m[name]] == name
    ensures forall name :: name in m ==> forall j :: m[name] < j < |header| ==> header[j] != name
  {
    if |header| == 0 then map[]
    else
      var n := |header| - 1;
      assert header == header[..n] + [header[n]];
      HeaderIndex(header[..n])[header[n] := n]
  }

  /** Reads the header row; if that fails, the zero scanner is returned. */
  function NewScanner(input: seq<Read>): (s: Scanner)
    ensures (|input| == 0 || input[0].failed) ==> s == ZeroScanner
    ensures |input| > 0 && !input[0].failed ==>
              s.reader == Some(input[1..]) && s.row == [] && s.head == HeaderIndex(input[0].record)
  {
    var (first, rest) := NextRead(input);
    if first.failed then ZeroScanner else Scanner(Some(rest), HeaderIndex(first.record), [])
  }

  /**
   * Reads the next record into `row` and reports whether the read
   * succeeded. A nil reader (the zero scanner) is dereferenced and panics:
   * that is `None`.
   */
  function Scan(s: Scanner): (r: Option<(Scanner, bool)>)
    ensures r.None? <==> s.reader.None?
    ensures r.Some? ==> r.value.0.head == s.head
    ensures r.Some? ==> (r.value.1 <==> |s.reader.value| > 0 && !s.reader.value[0].failed)
    ensures r.Some? && r.value.1 ==>
              r.value.0.row == s.reader.value[0].record && r.value.0.reader == Some(s.reader.value[1..])
  {
    match s.reader
    case None => None
    case Some(pending) =>
      var (next, rest) := NextRead(pending);
      Some((s.(reader := Some(rest), row := next.record), !next.failed))
  }

  /**
   * `Row[Head[name]]`: an unknown name reads column 0 (the map's zero
   * value); a column past the end of the row panics (`None`).
   */
  function Cell(head: map<string, int>, row: seq<string>, name: string): (r: Option<string>)
    ensures name !in head ==> r == (if |row| > 0 then Some(row[0]) else None)
    ensures name in head && 0 <= head[name] < |row| ==> r == Some(row[head[name]])
    ensures name in head && !(0 <= head[name] < |row|) ==> r.None?
    ensures r.Some? ==> r.value in row
  {
    var col := if name in head then head[name] else 0;
    if 0 <= col < |row| then Some(row[col]) else None
  }

  function ColumnText(s: Scanner, name: string): Option<string> {
    Cell(s.head, s.row, name)
  }

  /**
   * Reading a column by name after `NewScanner`: a full-width row gives the
   * cell under the LAST header occurrence of the name, and an unknown name
   * gives the first cell.
   */
  lemma TextReadsLastColumnNamed(header: seq<string>, row: seq<string>, name: string)
    requires |row| == |header| > 0
    ensures name in header ==>
              (exists j :: 0 <= j < |header| && header[j] == name
                 && (forall k :: j < k < |header| ==> header[k] != name)
                 && Cell(HeaderIndex(header), row, name) == Some(row[j]))
    ensures name !in header ==> Cell(HeaderIndex(header), row, name) == Some(row[0])
  {
    var m := HeaderIndex(header);
    if name in header {
      var j := m[name];
      assert forall k :: j < k < |header| ==> header[k] != name;
      assert Cell(m, row, name) == Some(row[j]);
    }
  }

  /** The records a `for s.Scan() { ... }` loop visits: all of them up to the first failed read. */
  function Records(pending: seq<Read>): seq<seq<string>> {
    if |pending| == 0 || pending[0].failed then [] else [pending[0].record] + Records(pending[1..])
  }

  // ---------------------------------------------------------------------
  // parseAllTime: model key -> upload time

  const FbxSuffix := ".fbx"
  const UtcSuffix := " +0000 UTC"

  /**
   * The model key of a path: paths containing ".fbx" with at least two
   * "/"-separated segments are keyed by the second segment minus a trailing
   * ".fbx"; other paths are skipped.
   */
  function KeyOfPath(path: string): (k: Option<string>)
    ensures k.Some? <==> Contains(path, FbxSuffix) && '/' in path
    ensures k.Some? ==> exists before, after :: path == before + "/" + k.value + after
  {
    if !Contains(path, FbxSuffix) then None
    else
      var parts := Split(path, '/');
      NoOccurrences(path, '/');
      if |parts| < 2 then None
      else
        SecondSegment(path, '/');
        var after :| path == parts[0] + ['/'] + (parts[1] + after);
        TrimmedInPlace(path, '/', parts[0], parts[1], after, FbxSuffix);
        Some(TrimSuffix(parts[1], FbxSuffix))
  }

  /** A model file directly under a directory is keyed by its name without ".fbx". */
  lemma KeyOfFlatPath(dir: string, name: string)
    requires '/' !in dir && '/' !in name
    requires HasSuffix(name, FbxSuffix)
    ensures KeyOfPath(dir + "/" + name) == Some(TrimSuffix(name, FbxSuffix))
  {
    var p := dir + "/" + name;
    var i := |dir| + 1 + |name| - 4;
    assert p[i..] == name[|name| - 4..];
    assert HasPrefix(p[i..], FbxSuffix);
    SplitAtFirst(dir, name, '/');
    SplitWithoutSeparator(name, '/');
  }

  /**
   * Every keyed path is keyed by its second segment minus ".fbx": the
   * text between the first "/" and the next "/" (or the end).
   */
  lemma KeyOfNestedPath(dir: string, seg: string, rest: string)
    requires '/' !in dir && '/' !in seg && (rest == [] || rest[0] == '/')
    requires Contains(dir + "/" + seg + rest, FbxSuffix)
    ensures KeyOfPath(dir + "/" + seg + rest) == Some(TrimSuffix(seg, FbxSuffix))
  {
    var p := dir + "/" + seg + rest;
    assert p == dir + ['/'] + (seg + rest);
    SplitAtFirst(dir, seg + rest, '/');
    if rest == [] {
      assert seg + rest == seg;
      SplitWithoutSeparator(seg, '/');
    } else {
      assert seg + rest == seg + ['/'] + rest[1..];
      SplitAtFirst(seg, rest[1..], '/');
    }
  }

  /** The key is the SECOND path segment, not the file name: a deeper path is keyed by its directory. */
  lemma KeyOfDeepPath()
    ensures KeyOfPath("a/b/c.fbx") == Some("b")
  {
    var p := "a/b/c.fbx";
    assert HasPrefix(p[5..], FbxSuffix);
    assert p == "a" + ['/'] + ("b" + ['/'] + "c.fbx");
    SplitAtFirst("a", "b" + ['/'] + "c.fbx", '/');
    SplitAtFirst("b", "c.fbx", '/');
  }

  /** A path without "/" is skipped. */
  lemma KeyOfBareName()
    ensures KeyOfPath("abc.fbx") == None
  {
    assert HasPrefix("abc.fbx"[3..], FbxSuffix);
    SplitWithoutSeparator("abc.fbx", '/');
  }

  /** A path that never mentions ".fbx" is skipped. */
  lemma KeyOfOtherFile()
    ensures KeyOfPath("models/abc.obj") == None
  {
    var p := "models/abc.obj";
    assert 'f' !in p;
    forall i | 0 <= i <= |p| ensures !HasPrefix(p[i..], FbxSuffix) {
      if i + 4 <= |p| {
        assert p[i..][1] == p[i + 1];
      }
    }
  }

  /** The second piece of a split stands right after the first separator. */
  lemma SecondSegment(s: string, sep: char)
    requires |Split(s, sep)| >= 2
    ensures exists after :: s == Split(s, sep)[0] + [sep] + (Split(s, sep)[1] + after)
  {
    var parts := Split(s, sep);
    JoinSplit(s, sep);
    var rest := if |parts| == 2 then [] else [sep] + Join(parts[2..], sep);
    assert parts[1..][1..] == parts[2..];
    assert Join(parts[1..], sep) == parts[1] + rest;
  }

  /** Trimming a suffix off a piece leaves it standing at the same place. */
  lemma TrimmedInPlace(s: string, sep: char, before: string, mid: string, after: string, suffix: string)
    requires s == before + [sep] + (mid + after)
    ensures exists b, a :: s == b + [sep] + TrimSuffix(mid, suffix) + a
  {
    var t := TrimSuffix(mid, suffix);
    if HasSuffix(mid, suffix) {
      assert mid + after == t + (suffix + after);
      assert s == before + [sep] + t + (suffix + after);
    } else {
      assert s == before + [sep] + t + after;
    }
  }

  /** The key a CSV row contributes, if any. */
  function KeyOfRow(head: map<string, int>, row: seq<string>): Option<string> {
    match Cell(head, row, "path")
    case None => None
    case Some(path) => KeyOfPath(path)
  }

  /** The parsed time of a keyed row, with the " +0000 UTC" tail removed first. */
  function TimeOfRow(head: map<string, int>, row: seq<string>, parse: string -> Option<int>): Option<int> {
    match Cell(head, row, "time")
    case None => None
    case Some(t) => parse(TrimSuffix(t, UtcSuffix))
  }

  /** Whether handling the row panics: a missing column, or an unparsable time on a keyed row. */
  predicate Panics(head: map<string, int>, row: seq<string>, parse: string -> Option<int>) {
    Cell(head, row, "path").None? || (KeyOfRow(head, row).Some? && TimeOfRow(head, row, parse).None?)
  }

  /** One iteration of the loop body. */
  function Absorb(head: map<string, int>, row: seq<string>, all: map<string, int>,
                  parse: string -> Option<int>): (r: Option<map<string, int>>)
    ensures r.None? <==> Panics(head, row, parse)
    ensures r.Some? && KeyOfRow(head, row).None? ==> r.value == all
    ensures r.Some? && KeyOfRow(head, row).Some? ==>
              r.value == all[KeyOfRow(head, row).value := TimeOfRow(head, row, parse).value]
  {
    match Cell(head, row, "path")
    case None => None
    case Some(path) =>
      if !Contains(path, FbxSuffix) then Some(all)
      else
        var splits := Split(path, '/');
        if |splits| < 2 then Some(all)
        else
          match Cell(head, row, "time")
          case None => None
          case Some(t) =>
            match parse(TrimSuffix(t, UtcSuffix))
            case None => None
            case Some(ts) => Some(all[TrimSuffix(splits[1], FbxSuffix) := ts])
  }

  function Lookup(m: map<string, int>, k: string): Option<int> {
    if k in m then Some(m[k]) else None
  }

  /** Row `j` is the last row carrying model key `k`. */
  predicate LastKeyedAt(head: map<string, int>, rows: seq<seq<string>>, j: int, k: string) {
    0 <= j < |rows| && KeyOfRow(head, rows[j]) == Some(k)
    && forall i :: j < i < |rows| ==> KeyOfRow(head, rows[i]) != Some(k)
  }

  /** No row carries model key `k`. */
  predicate Unkeyed(head: map<string, int>, rows: seq<seq<string>>, k: string) {
    forall i :: 0 <= i < |rows| ==> KeyOfRow(head, rows[i]) != Some(k)
  }

  /** The loop over the records, front to back, with the map built so far; `None` if a row panics. */
  function FoldRows(head: map<string, int>, rows: seq<seq<string>>, all: map<string, int>,
                    parse: string -> Option<int>): (r: Option<map<string, int>>)
    ensures r.None? <==> exists i :: 0 <= i < |rows| && Panics(head, rows[i], parse)
    decreases |rows|
  {
    if |rows| == 0 then Some(all)
    else
      assert forall i :: 1 <= i < |rows| ==> rows[i] == rows[1..][i - 1];
      match Absorb(head, rows[0], all, parse)
      case None => None
      case Some(all') => FoldRows(head, rows[1..], all', parse)
  }

  /**
   * Later rows overwrite earlier ones: after the loop every key maps to
   * the time of the LAST row carrying it, and keys no row carries keep the
   * value they had before.
   */
  lemma {:induction false} FoldRowsLastWins(head: map<string, int>, rows: seq<seq<string>>, all: map<string, int>,
                                            parse: string -> Option<int>)
    requires FoldRows(head, rows, all, parse).Some?
    ensures forall j, k :: LastKeyedAt(head, rows, j, k) ==>
              Lookup(FoldRows(head, rows, all, parse).value, k) == TimeOfRow(head, rows[j], parse)
    ensures forall k :: Unkeyed(head, rows, k) ==> Lookup(FoldRows(head, rows, all, parse).value, k) == Lookup(all, k)
    decreases |rows|
  {
    if |rows| > 0 {
      var all' := Absorb(head, rows[0], all, parse).value;
      var tail := rows[1..];
      var r := FoldRows(head, tail, all', parse).value;
      assert r == FoldRows(head, rows, all, parse).value;
      FoldRowsLastWins(head, tail, all', parse);
      forall j, k | LastKeyedAt(head, rows, j, k)
        ensures Lookup(r, k) == TimeOfRow(head, rows[j], parse)
      {
        if j == 0 {
          assert Unkeyed(head, tail, k) by {
            forall i | 0 <= i < |tail| ensures KeyOfRow(head, tail[i]) != Some(k) {
              assert tail[i] == rows[i + 1];
            }
          }
        } else {
          assert LastKeyedAt(head, tail, j - 1, k) by {
            forall i | j - 1 < i < |tail| ensures KeyOfRow(head, tail[i]) != Some(k) {
              assert tail[i] == rows[i + 1];
            }
          }
        }
      }
      forall k | Unkeyed(head, rows, k)
        ensures Lookup(r, k) == Lookup(all, k)
      {
        assert KeyOfRow(head, rows[0]) != Some(k);
        assert Unkeyed(head, tail, k) by {
          forall i | 0 <= i < |tail| ensures KeyOfRow(head, tail[i]) != Some(k) {
            assert tail[i] == rows[i + 1];
          }
        }
      }
    }
  }

  /** The `for o.Scan()` loop of parseAllTime, exactly as written. */
  function ScanAll(s: Scanner, all: map<string, int>, parse: string -> Option<int>): Option<map<string, int>>
    decreases if s.reader.Some? then |s.reader.value| else 0
  {
    match Scan(s)
    case None => None
    case Some((s', ok)) =>
      if !ok then Some(all)
      else
        match Absorb(s'.head, s'.row, all, parse)
        case None => None
        case Some(all') => ScanAll(s', all', parse)
  }

  /** The scanning loop is the fold over the records it visits. */
  lemma {:induction false} ScanAllIsFold(s: Scanner, all: map<string, int>, parse: string -> Option<int>)
    requires s.reader.Some?
    ensures ScanAll(s, all, parse) == FoldRows(s.head, Records(s.reader.value), all, parse)
    decreases |s.reader.value|
  {
    var pending := s.reader.value;
    if |pending| > 0 && !pending[0].failed {
      var s' := Scan(s).value.0;
      match Absorb(s'.head, s'.row, all, parse)
      case None =>
      case Some(all') =>
        ScanAllIsFold(s', all', parse);
        assert Records(pending)[1..] == Records(pending[1..]);
    }
  }

  /**
   * parseAllTime over the CSV input: panics (`None`) when the header cannot
   * be read or a visited row panics; otherwise it is the fold over the
   * visited records, starting from the empty map.
   */
  function ParseAllTime(input: seq<Read>, parse: string -> Option<int>): (r: Option<map<string, int>>)
    ensures (|input| == 0 || input[0].failed) ==> r.None?
    ensures |input| > 0 && !input[0].failed ==>
              r == FoldRows(HeaderIndex(input[0].record), Records(input[1..]), map[], parse)
  {
    var s := NewScanner(input);
    if s.reader.Some? then
      ScanAllIsFold(s, map[], parse);
      ScanAll(s, map[], parse)
    else ScanAll(s, map[], parse)
  }

  /**
   * What parseAllTime returns: each model key maps to the time of the last
   * visited row naming it, and a key no row names is absent.
   */
  lemma ParseAllTimeLastWins(input: seq<Read>, parse: string -> Option<int>)
    requires |input| > 0 && !input[0].failed
    requires ParseAllTime(input, parse).Some?
    ensures var head := HeaderIndex(input[0].record);
            var rows := Records(input[1..]);
            var m := ParseAllTime(input, parse).value;
            && (forall j, k :: LastKeyedAt(head, rows, j, k) ==> Lookup(m, k) == TimeOfRow(head, rows[j], parse))
            && (forall k :: Unkeyed(head, rows, k) ==> k !in m)
  {
    FoldRowsLastWins(HeaderIndex(input[0].record), Records(input[1..]), map[], parse);
  }

  // ---------------------------------------------------------------------
  // main: sort, filter, bucket

  /** `time.Time{}.Unix()`: the time of a model missing from the map. */
  const ZeroUnix := -62135596800

  datatype Row = Row(root: string, model: string, unixTime: int, rating: int)

  /** Go's `int(x)` for a float64: truncation toward zero. */
  function Truncate(x: real): (n: int)
    ensures x >= 0.0 ==> n as real <= x < n as real + 1.0
    ensures x < 0.0 ==> n as real - 1.0 < x <= n as real
  {
    if x >= 0.0 then x.Floor else -((-x).Floor)
  }

  /** A rating survives the filter exactly when it is above -1: -0.5 truncates to 0. */
  lemma KeptRatings(x: real)
    ensures Truncate(x) >= 0 <==> x > -1.0
  {
  }

  /**
   * One row per rated variant, in the order the variants map is walked:
   * the session id as root, the time from the time map (or the zero time).
   */
  function RowsOf(id: string, variants: seq<(string, real)>, times: map<string, int>): (rows: seq<Row>)
    ensures |rows| == |variants|
    ensures forall i :: 0 <= i < |rows| ==> rows[i].root == id && rows[i].model == variants[i].0
    ensures forall i :: 0 <= i < |rows| ==> rows[i].unixTime == Lookup(times, variants[i].0).GetOr(ZeroUnix)
    ensures forall i :: 0 <= i < |rows| ==> rows[i].rating == Truncate(variants[i].1)
  {
    seq(|variants|, i requires 0 <= i < |variants| =>
      Row(id, variants[i].0, Lookup(times, variants[i].0).GetOr(ZeroUnix), Truncate(variants[i].1)))
  }

  predicate Ascending(rows: seq<Row>) {
    forall i, j :: 0 <= i < j < |rows| ==> rows[i].unixTime <= rows[j].unixTime
  }

  /** The rows with a given time, in their relative order. */
  function WithTime(rows: seq<Row>, t: int): seq<Row> {
    if |rows| == 0 then [] else (if rows[0].unixTime == t then [rows[0]] else []) + WithTime(rows[1..], t)
  }

  lemma {:induction false} WithTimeAppend(a: seq<Row>, b: seq<Row>, t: int)
    ensures WithTime(a + b, t) == WithTime(a, t) + WithTime(b, t)
  {
    if |a| > 0 {
      WithTimeAppend(a[1..], b, t);
      assert (a + b)[1..] == a[1..] + b;
    } else {
      assert a + b == b;
    }
  }

  lemma {:induction false} WithTimeAbsent(rows: seq<Row>, t: int)
    requires forall i :: 0 <= i < |rows| ==> rows[i].unixTime != t
    ensures WithTime(rows, t) == []
  {
    if |rows| > 0 {
      WithTimeAbsent(rows[1..], t);
    }
  }

  /** Every row of `rows` is at `t` or later. */
  predicate NotBefore(rows: seq<Row>, t: int) {
    forall i :: 0 <= i < |rows| ==> t <= rows[i].unixTime
  }

  /** Inserts `x` after every row whose time is not later than its own. */
  function Insert(sorted: seq<Row>, x: Row): (r: seq<Row>)
    ensures multiset(r) == multiset(sorted) + multiset{x}
    ensures |r| == |sorted| + 1
  {
    if |sorted| == 0 then [x]
    else if x.unixTime < sorted[0].unixTime then [x] + sorted
    else
      assert sorted == [sorted[0]] + sorted[1..];
      [sorted[0]] + Insert(sorted[1..], x)
  }

  /** A lower bound of both the rows and the new row bounds the result. */
  lemma {:induction false} InsertNotBefore(sorted: seq<Row>, x: Row, t: int)
    requires NotBefore(sorted, t) && t <= x.unixTime
    ensures NotBefore(Insert(sorted, x), t)
  {
    var r := Insert(sorted, x);
    forall i | 0 <= i < |r| ensures t <= r[i].unixTime {
      assert r[i] in multiset(r);
      if r[i] != x {
        assert r[i] in multiset(sorted);
        assert r[i] in sorted;
      }
    }
  }

  /** Inserting into an ascending sequence keeps it ascending. */
  lemma {:induction false} InsertAscending(sorted: seq<Row>, x: Row)
    requires Ascending(sorted)
    ensures Ascending(Insert(sorted, x))
  {
    if |sorted| > 0 && x.unixTime >= sorted[0].unixTime {
      var tail := sorted[1..];
      InsertAscending(tail, x);
      assert NotBefore(tail, sorted[0].unixTime);
      InsertNotBefore(tail, x, sorted[0].unixTime);
    }
  }

  /** Insertion goes after the rows with the same time: ties keep their arrival order. */
  lemma {:induction false} InsertKeepsTies(sorted: seq<Row>, x: Row, t: int)
    requires Ascending(sorted)
    ensures WithTime(Insert(sorted, x), t) == WithTime(sorted, t) + WithTime([x], t)
  {
    if |sorted| == 0 {
      assert WithTime(sorted, t) == [];
    } else if x.unixTime < sorted[0].unixTime {
      InsertFrontTies(sorted, x, t);
    } else {
      var rest := Insert(sorted[1..], x);
      assert Insert(sorted, x) == [sorted[0]] + rest;
      assert Ascending(sorted[1..]);
      InsertKeepsTies(sorted[1..], x, t);
      ConsTies(sorted[0], rest, sorted[1..], WithTime([x], t), t);
      assert sorted == [sorted[0]] + sorted[1..];
    }
  }

  /** Putting one row in front of two sequences with the same ties keeps them equal. */
  lemma ConsTies(h: Row, rest: seq<Row>, tail: seq<Row>, added: seq<Row>, t: int)
    requires WithTime(rest, t) == WithTime(tail, t) + added
    ensures WithTime([h] + rest, t) == WithTime([h] + tail, t) + added
  {
    WithTimeAppend([h], rest, t);
    WithTimeAppend([h], tail, t);
  }

  /** A row earlier than every other goes first and still follows the rows with its time (there are none). */
  lemma InsertFrontTies(sorted: seq<Row>, x: Row, t: int)
    requires Ascending(sorted) && |sorted| > 0 && x.unixTime < sorted[0].unixTime
    ensures WithTime([x] + sorted, t) == WithTime(sorted, t) + WithTime([x], t)
  {
    WithTimeAppend([x], sorted, t);
    if t == x.unixTime {
      assert forall i :: 0 <= i < |sorted| ==> sorted[0].unixTime <= sorted[i].unixTime;
      WithTimeAbsent(sorted, t);
    }
  }

  /** `sort.SliceStable(rows, by unixTime)`: an ascending permutation of the input. */
  function SortByTime(rows: seq<Row>): (r: seq<Row>)
    ensures Ascending(r)
    ensures multiset(r) == multiset(rows)
  {
    if |rows| == 0 then []
    else
      var n := |rows| - 1;
      assert rows == rows[..n] + [rows[n]];
      InsertAscending(SortByTime(rows[..n]), rows[n]);
      Insert(SortByTime(rows[..n]), rows[n])
  }

  /** One insertion step of the sort keeps the ties of the rows read so far plus the new one. */
  lemma StableStep(rows: seq<Row>, front: seq<Row>, last: Row, sorted: seq<Row>, inserted: seq<Row>, t: int)
    requires |rows| > 0 && front == rows[..|rows| - 1] && last == rows[|rows| - 1]
    requires WithTime(sorted, t) == WithTime(front, t)
    requires WithTime(inserted, t) == WithTime(sorted, t) + WithTime([last], t)
    ensures WithTime(inserted, t) == WithTime(rows, t)
  {
    assert rows == front + [last];
    WithTimeAppend(front, [last], t);
  }

  /** The sort is stable: rows with equal times keep their input order. */
  lemma {:induction false} SortByTimeStable(rows: seq<Row>, t: int)
    ensures WithTime(SortByTime(rows), t) == WithTime(rows, t)
  {
    if |rows| > 0 {
      var n := |rows| - 1;
      var front := rows[..n];
      var sorted := SortByTime(front);
      assert SortByTime(rows) == Insert(sorted, rows[n]);
      SortByTimeStable(front, t);
      InsertKeepsTies(sorted, rows[n], t);
      StableStep(rows, front, rows[n], sorted, Insert(sorted, rows[n]), t);
    }
  }

  /** One output record: `root,model,unixTime,iteration,rating`. */
  datatype Line = Line(root: string, model: string, unixTime: int, iteration: int, rating: int)

  const CsvHeader := "root,model,unixTime,iteration,rating,\n"

  /** The rows that survive the filter, in order. */
  function Kept(rows: seq<Row>): (kept: seq<Row>)
    ensures |kept| <= |rows|
    ensures forall i :: 0 <= i < |kept| ==> kept[i].rating >= 0
    ensures multiset(kept) <= multiset(rows)
  {
    if |rows| == 0 then []
    else
      assert rows == [rows[0]] + rows[1..];
      if rows[0].rating < 0 then Kept(rows[1..]) else [rows[0]] + Kept(rows[1..])
  }

  /**
   * The output loop: rows with a negative rating are skipped, and each
   * printed row carries `emitted / 4`, where `emitted` counts the rows
   * printed before it.
   */
  function Emit(sorted: seq<Row>, emitted: nat): (lines: seq<Line>)
    ensures |lines| == |Kept(sorted)|
    ensures forall n :: 0 <= n < |lines| ==>
              var row := Kept(sorted)[n];
              lines[n] == Line(row.root, row.model, row.unixTime, (emitted + n) / 4, row.rating)
  {
    if |sorted| == 0 then []
    else if sorted[0].rating < 0 then Emit(sorted[1..], emitted)
    else
      var row := sorted[0];
      [Line(row.root, row.model, row.unixTime, emitted / 4, row.rating)] + Emit(sorted[1..], emitted + 1)
  }

  /** The lines written for one session. */
  function Distribution(id: string, variants: seq<(string, real)>, times: map<string, int>): seq<Line> {
    Emit(SortByTime(RowsOf(id, variants, times)), 0)
  }

  /**
   * Iterations are numbered in fours: they start at 0, never decrease,
   * grow by at most one from line to line, and no iteration holds more
   * than four lines.
   */
  lemma EmitIterations(sorted: seq<Row>)
    ensures var lines := Emit(sorted, 0);
            && (|lines| > 0 ==> lines[0].iteration == 0)
            && (forall n :: 0 < n < |lines| ==>
                  lines[n - 1].iteration <= lines[n].iteration <= lines[n - 1].iteration + 1)
            && (forall i, j :: 0 <= i < j < |lines| && lines[i].iteration == lines[j].iteration ==> j - i < 4)
  {
    var lines := Emit(sorted, 0);
    assert forall n :: 0 <= n < |lines| ==> lines[n].iteration == n / 4;
  }

  /** The lines of a session are in time order, carry its id and only non-negative ratings. */
  lemma DistributionOrdered(id: string, variants: seq<(string, real)>, times: map<string, int>)
    ensures var lines := Distribution(id, variants, times);
            && (forall i, j :: 0 <= i < j < |lines| ==> lines[i].unixTime <= lines[j].unixTime)
            && (forall n :: 0 <= n < |lines| ==> lines[n].rating >= 0 && lines[n].root == id)
  {
    var rows := RowsOf(id, variants, times);
    var sorted := SortByTime(rows);
    var kept := Kept(sorted);
    KeptAscending(sorted);
    forall n | 0 <= n < |kept| ensures kept[n].root == id {
      assert kept[n] in multiset(kept);
      assert kept[n] in multiset(rows);
    }
  }

  /** One filter step: the first row is kept exactly when its rating is not negative. */
  lemma KeptStep(rows: seq<Row>)
    requires |rows| > 0
    ensures Kept(rows) == (if rows[0].rating < 0 then [] else [rows[0]]) + Kept(rows[1..])
  {
  }

  /** Every row with a non-negative rating is kept, as often as it occurs. */
  lemma {:induction false} KeptComplete(rows: seq<Row>)
    ensures forall r: Row :: r.rating >= 0 ==> multiset(Kept(rows))[r] == multiset(rows)[r]
  {
    if |rows| > 0 {
      var head, tail := rows[0], rows[1..];
      KeptComplete(tail);
      assert rows == [head] + tail;
      var all, kept := multiset(rows), multiset(Kept(rows));
      assert all == multiset{head} + multiset(tail);
      if head.rating < 0 {
        assert kept == multiset(Kept(tail));
      } else {
        assert Kept(rows) == [head] + Kept(tail);
        assert kept == multiset{head} + multiset(Kept(tail));
      }
    }
  }

  /** The filter works row by row, so it keeps the input order. */
  lemma {:induction false} KeptAppend(a: seq<Row>, b: seq<Row>)
    ensures Kept(a + b) == Kept(a) + Kept(b)
  {
    if |a| == 0 {
      assert a + b == b;
    } else {
      var ab := a + b;
      assert ab[0] == a[0];
      assert ab[1..] == a[1..] + b;
      KeptAppend(a[1..], b);
      KeptStep(ab);
      KeptStep(a);
    }
  }

  /** Filtering keeps a lower time bound. */
  lemma {:induction false} KeptNotBefore(rows: seq<Row>, t: int)
    requires NotBefore(rows, t)
    ensures NotBefore(Kept(rows), t)
  {
    if |rows| > 0 {
      assert NotBefore(rows[1..], t);
      KeptNotBefore(rows[1..], t);
    }
  }

  lemma {:induction false} KeptAscending(rows: seq<Row>)
    requires Ascending(rows)
    ensures Ascending(Kept(rows))
  {
    if |rows| > 0 {
      var tail := rows[1..];
      assert Ascending(tail);
      KeptAscending(tail);
      if rows[0].rating >= 0 {
        assert NotBefore(tail, rows[0].unixTime);
        KeptNotBefore(tail, rows[0].unixTime);
        var k := Kept(tail);
        assert Kept(rows) == [rows[0]] + k;
        assert forall i :: 1 <= i < |Kept(rows)| ==> Kept(rows)[i] == k[i - 1];
      }
    }
  }

  /** The five printed fields of a line, in column order. */
  function LineFields(l: Line): (fields: seq<string>)
    ensures |fields| == 5
  {
    [l.root, l.model, Decimal(l.unixTime), Decimal(l.iteration), Decimal(l.rating)]
  }

  /** One line as the export prints it: `%v,%v,%v,%v,%v\n`. */
  function FormatLine(l: Line): string {
    Join(LineFields(l), ',') + "\n"
  }

  /** A printed line splits back into its five fields when the ids hold no comma. */
  lemma FormatLineFields(l: Line)
    requires ',' !in l.root && ',' !in l.model
    ensures var text := FormatLine(l);
            && text[|text| - 1] == '\n'
            && Split(text[..|text| - 1], ',') == LineFields(l)
  {
    var text := FormatLine(l);
    assert text[..|text| - 1] == Join(LineFields(l), ',');
    SplitJoin(LineFields(l), ',');
  }
}

=== FILE: routes.dfy ===
/**
 * The URLs the SDK builds: `endpoint + path`, where the path is a fixed
 * prefix for the operation followed by the identifiers it targets.
 * `ParsePath` reads a path back into the route it came from; the round-trip
 * lemma shows that distinct operations and identifiers never share a URL
 * unless the source says they do (inspect and evaluate share one).
 */
module Routes {
  import opened Wrappers
  import opened Text

  const ProPolyredBase := "/api/v1/propolyred/"
  const PolyredBase := "/api/v1/polyred/"

  datatype Route =
    | ProUpload
    | ProRun(session: string)
    | ProDownload(session: string, phase: string)
    | ProEvaluate(session: string)
    | ProReset(session: string)
    | ProCopy(session: string)
    | Upload
    | Config(model: string)
    | Run(model: string)
    | Download(model: string)

  function Path(r: Route): string {
    match r
    case ProUpload => ProPolyredBase + "upload"
    case ProRun(s) => ProPolyredBase + "run/" + s
    case ProDownload(s, p) => ProPolyredBase + "download/" + s + "/" + p
    case ProEvaluate(s) => ProPolyredBase + "evaluate/" + s
    case ProReset(s) => ProPolyredBase + "reset/" + s
    case ProCopy(s) => ProPolyredBase + "copy/" + s
    case Upload => PolyredBase + "upload"
    case Config(m) => PolyredBase + "config/" + m
    case Run(m) => PolyredBase + "run/" + m
    case Download(m) => PolyredBase + "download/" + m
  }

  /** The URL of a route on a given endpoint: plain concatenation, no escaping. */
  function Url(endpoint: string, r: Route): (u: string)
    ensures HasPrefix(u, endpoint)
    ensures u[|endpoint|..] == Path(r)
  {
    endpoint + Path(r)
  }

  /** A route the parser can recover: a session id in a download URL holds no '/'. */
  predicate Recoverable(r: Route) {
    r.ProDownload? ==> '/' !in r.session
  }

  function ParseUrl(endpoint: string, url: string): Option<Route> {
    if HasPrefix(url, endpoint) then ParsePath(url[|endpoint|..]) else None
  }

  function ParsePath(p: string): Option<Route> {
    if HasPrefix(p, ProPolyredBase) then ParseProPolyred(p[|ProPolyredBase|..])
    else if HasPrefix(p, PolyredBase) then ParsePolyred(p[|PolyredBase|..])
    else None
  }

  function ParseProPolyred(rest: string): Option<Route> {
    if rest == "upload" then Some(ProUpload)
    else if HasPrefix(rest, "run/") then Some(ProRun(rest[4..]))
    else if HasPrefix(rest, "evaluate/") then Some(ProEvaluate(rest[9..]))
    else if HasPrefix(rest, "reset/") then Some(ProReset(rest[6..]))
    else if HasPrefix(rest, "copy/") then Some(ProCopy(rest[5..]))
    else if HasPrefix(rest, "download/") then
      var parts := Split(rest[9..], '/');
      if |parts| < 2 then None else Some(ProDownload(parts[0], Join(parts[1..], '/')))
    else None
  }

  function ParsePolyred(rest: string): Option<Route> {
    if rest == "upload" then Some(Upload)
    else if HasPrefix(rest, "config/") then Some(Config(rest[7..]))
    else if HasPrefix(rest, "run/") then Some(Run(rest[4..]))
    else if HasPrefix(rest, "download/") then Some(Download(rest[9..]))
    else None
  }

  /** A download path splits back into its session and phase when the session holds no '/'. */
  lemma ProDownloadRoundTrip(s: string, p: string)
    requires '/' !in s
    ensures ParseProPolyred("download/" + s + "/" + p) == Some(ProDownload(s, p))
  {
    var rest := "download/" + s + "/" + p;
    assert rest[..9] == "download/";
    assert rest[9..] == s + ['/'] + p;
    assert rest != "upload";
    assert !HasPrefix(rest, "run/") by { assert rest[0] != 'r'; }
    assert !HasPrefix(rest, "evaluate/") by { assert rest[0] != 'e'; }
    assert !HasPrefix(rest, "reset/") by { assert rest[0] != 'r'; }
    assert !HasPrefix(rest, "copy/") by { assert rest[0] != 'c'; }
    SplitAtFirst(s, p, '/');
    var parts := Split(rest[9..], '/');
    assert parts[1..] == Split(p, '/');
    JoinSplit(p, '/');
  }

  /** The upload, run and evaluate routes of the session-based service parse back from their paths. */
  lemma ProPathRoundTrip(r: Route)
    requires r.ProUpload? || r.ProRun? || r.ProEvaluate?
    ensures ParsePath(Path(r)) == Some(r)
  {
    var p := Path(r);
    var rest := p[|ProPolyredBase|..];
    assert p[..|ProPolyredBase|] == ProPolyredBase;
    match r
    case ProUpload =>
      assert rest == "upload";
    case ProRun(s) =>
      assert rest == "run/" + s;
      assert rest[..4] == "run/";
      assert rest != "upload" by { assert rest[0] != "upload"[0]; }
    case ProEvaluate(s) =>
      assert rest == "evaluate/" + s;
      assert rest[..9] == "evaluate/";
      assert rest != "upload" by { assert rest[0] != "upload"[0]; }
      assert !HasPrefix(rest, "run/") by { assert rest[0] != 'r'; }
  }

  /** A download route parses back from its path when the session holds no '/'. */
  lemma ProDownloadPathRoundTrip(s: string, ph: string)
    requires '/' !in s
    ensures ParsePath(Path(ProDownload(s, ph))) == Some(ProDownload(s, ph))
  {
    var p := Path(ProDownload(s, ph));
    assert p[..|ProPolyredBase|] == ProPolyredBase;
    assert p[|ProPolyredBase|..] == "download/" + s + "/" + ph;
    ProDownloadRoundTrip(s, ph);
  }

  /** Reset and copy routes parse back from their paths. */
  lemma ProSessionPathRoundTrip(r: Route)
    requires r.ProReset? || r.ProCopy?
    ensures ParsePath(Path(r)) == Some(r)
  {
    var p := Path(r);
    var rest := p[|ProPolyredBase|..];
    assert p[..|ProPolyredBase|] == ProPolyredBase;
    assert rest != "upload" by { assert rest[0] != "upload"[0]; }
    assert !HasPrefix(rest, "evaluate/") by { assert rest[0] != 'e'; }
    match r
    case ProReset(s) =>
      assert rest == "reset/" + s;
      assert rest[..6] == "reset/";
      assert !HasPrefix(rest, "run/") by { assert rest[1] != 'u'; }
    case ProCopy(s) =>
      assert rest == "copy/" + s;
      assert rest[..5] == "copy/";
      assert !HasPrefix(rest, "run/") by { assert rest[0] != 'r'; }
      assert !HasPrefix(rest, "reset/") by { assert rest[0] != 'r'; }
  }

  /** The plain routes parse back from their paths. */
  lemma PlainPathRoundTrip(r: Route)
    requires r.Upload? || r.Config? || r.Run? || r.Download?
    ensures ParsePath(Path(r)) == Some(r)
  {
    var p := Path(r);
    var rest := p[|PolyredBase|..];
    assert p[..|PolyredBase|] == PolyredBase;
    assert !HasPrefix(p, ProPolyredBase) by {
      assert p[9] != ProPolyredBase[9];
    }
    match r
    case Upload =>
      assert rest == "upload";
    case Config(m) =>
      assert rest == "config/" + m;
      assert rest[..7] == "config/";
      assert rest != "upload" by { assert rest[0] != "upload"[0]; }
    case Run(m) =>
      assert rest == "run/" + m;
      assert rest[..4] == "run/";
      assert rest != "upload" by { assert rest[0] != "upload"[0]; }
      assert !HasPrefix(rest, "config/") by { assert rest[0] != 'c'; }
    case Download(m) =>
      assert rest == "download/" + m;
      assert rest[..9] == "download/";
      assert rest != "upload" by { assert rest[0] != "upload"[0]; }
      assert !HasPrefix(rest, "config/") by { assert rest[0] != 'c'; }
      assert !HasPrefix(rest, "run/") by { assert rest[0] != 'r'; }
  }

  /** Parsing undoes path construction for every recoverable route. */
  lemma PathRoundTrip(r: Route)
    requires Recoverable(r)
    ensures ParsePath(Path(r)) == Some(r)
  {
    if r.ProUpload? || r.ProRun? || r.ProEvaluate? {
      ProPathRoundTrip(r);
    } else if r.ProDownload? {
      ProDownloadPathRoundTrip(r.session, r.phase);
    } else if r.ProReset? || r.ProCopy? {
      ProSessionPathRoundTrip(r);
    } else {
      PlainPathRoundTrip(r);
    }
  }

  /** The URL round trip, on any endpoint. */
  lemma UrlRoundTrip(endpoint: string, r: Route)
    requires Recoverable(r)
    ensures ParseUrl(endpoint, Url(endpoint, r)) == Some(r)
  {
    PathRoundTrip(r);
  }

  /** Two recoverable routes that share a URL on one endpoint are the same route. */
  lemma UrlInjective(endpoint: string, r1: Route, r2: Route)
    requires Recoverable(r1) && Recoverable(r2)
    requires Url(endpoint, r1) == Url(endpoint, r2)
    ensures r1 == r2
  {
    UrlRoundTrip(endpoint, r1);
    UrlRoundTrip(endpoint, r2);
  }
}

=== FILE: text.dfy ===
/**
 * The handful of Go `strings` helpers the SDK and the scripts rely on:
 * ASCII lowering, prefix/suffix tests and trims, substring search and
 * splitting on a one-character separator.
 */
module Text {
  import opened Wrappers

  /** Go's `strings.ToLower` restricted to ASCII: 'A'..'Z' become 'a'..'z'. */
  function LowerChar(c: char): char {
    if 'A' <= c <= 'Z' then (c as int + 32) as char else c
  }

  function ToLower(s: string): (r: string)
    ensures |r| == |s|
    ensures forall i :: 0 <= i < |s| ==> r[i] == LowerChar(s[i])
  {
    seq(|s|, i requires 0 <= i < |s| => LowerChar(s[i]))
  }

  /** Lowering distributes over concatenation. */
  lemma ToLowerAppend(a: string, b: string)
    ensures ToLower(a + b) == ToLower(a) + ToLower(b)
  {
    assert forall i :: 0 <= i < |a + b| ==> ToLower(a + b)[i] == (ToLower(a) + ToLower(b))[i];
  }

  predicate HasPrefix(s: string, p: string) {
    |p| <= |s| && s[..|p|] == p
  }

  predicate HasSuffix(s: string, p: string) {
    |p| <= |s| && s[|s| - |p|..] == p
  }

  /** Go's `strings.TrimPrefix`: drops `p` once from the front when it is there. */
  function TrimPrefix(s: string, p: string): (r: string)
    ensures HasPrefix(s, p) ==> p + r == s
    ensures !HasPrefix(s, p) ==> r == s
  {
    if HasPrefix(s, p) then s[|p|..] else s
  }

  /** Go's `strings.TrimSuffix`: drops `p` once from the back when it is there. */
  function TrimSuffix(s: string, p: string): (r: string)
    ensures HasSuffix(s, p) ==> r + p == s
    ensures !HasSuffix(s, p) ==> r == s
  {
    if HasSuffix(s, p) then s[..|s| - |p|] else s
  }

  /** Go's `strings.Contains`: `t` occurs somewhere inside `s`. */
  predicate Contains(s: string, t: string) {
    exists i :: 0 <= i <= |s| && HasPrefix(s[i..], t)
  }

  /** Number of occurrences of `c` in `s`. */
  function Occurrences(s: string, c: char): nat {
    if |s| == 0 then 0 else (if s[0] == c then 1 else 0) + Occurrences(s[1..], c)
  }

  lemma {:induction false} NoOccurrences(s: string, c: char)
    ensures Occurrences(s, c) == 0 <==> c !in s
  {
    if |s| > 0 {
      NoOccurrences(s[1..], c);
      assert s == [s[0]] + s[1..];
    }
  }

  /**
   * Go's `strings.Split(s, string(sep))`: the pieces between separators.
   * There is always at least one piece, and an empty string gives [""].
   */
  function Split(s: string, sep: char): (parts: seq<string>)
    ensures |parts| == Occurrences(s, sep) + 1
    ensures forall i :: 0 <= i < |parts| ==> sep !in parts[i]
  {
    if |s| == 0 then [""]
    else if s[0] == sep then [""] + Split(s[1..], sep)
    else
      var rest := Split(s[1..], sep);
      [[s[0]] + rest[0]] + rest[1..]
  }

  /** Go's `strings.Join(parts, string(sep))`. */
  function Join(parts: seq<string>, sep: char): string
    requires |parts| >= 1
  {
    if |parts| == 1 then parts[0] else parts[0] + [sep] + Join(parts[1..], sep)
  }

  /** Splitting loses nothing: joining the pieces back gives the input. */
  lemma {:induction false} JoinSplit(s: string, sep: char)
    ensures Join(Split(s, sep), sep) == s
  {
    if |s| == 0 {
    } else if s[0] == sep {
      JoinSplit(s[1..], sep);
      assert s == [sep] + s[1..];
    } else {
      var rest := Split(s[1..], sep);
      JoinSplit(s[1..], sep);
      var parts := [[s[0]] + rest[0]] + rest[1..];
      assert parts[1..] == rest[1..];
      if |rest| == 1 {
        assert s == [s[0]] + s[1..];
      } else {
        assert Join(rest, sep) == rest[0] + [sep] + Join(rest[1..], sep);
        assert s == [s[0]] + s[1..];
      }
    }
  }

  /** Joining separator-free pieces and splitting again gives the pieces back. */
  lemma {:induction false} SplitJoin(parts: seq<string>, sep: char)
    requires |parts| >= 1
    requires forall i :: 0 <= i < |parts| ==> sep !in parts[i]
    ensures Split(Join(parts, sep), sep) == parts
    decreases |parts|
  {
    if |parts| == 1 {
      SplitWithoutSeparator(parts[0], sep);
    } else {
      SplitJoin(parts[1..], sep);
      SplitAtFirst(parts[0], Join(parts[1..], sep), sep);
      assert parts == [parts[0]] + parts[1..];
    }
  }

  /** Splitting at the first separator: the text before it is the first piece. */
  lemma {:induction false} SplitAtFirst(a: string, b: string, sep: char)
    requires sep !in a
    ensures Split(a + [sep] + b, sep) == [a] + Split(b, sep)
  {
    if |a| == 0 {
      assert a + [sep] + b == [sep] + b;
      assert ([sep] + b)[1..] == b;
    } else {
      assert sep !in a[1..] by {
        assert forall c :: c in a[1..] ==> c in a;
      }
      SplitAtFirst(a[1..], b, sep);
      var s := a + [sep] + b;
      assert s[0] == a[0];
      assert s[1..] == a[1..] + [sep] + b;
      assert a[0] != sep by { assert a[0] in a; }
      assert [a[0]] + a[1..] == a;
    }
  }

  /** A text without the separator is a single piece. */
  lemma SplitWithoutSeparator(s: string, sep: char)
    requires sep !in s
    ensures Split(s, sep) == [s]
  {
    NoOccurrences(s, sep);
    JoinSplit(s, sep);
  }

  /** The decimal digit character for 0..9. */
  function DigitChar(d: int): char
    requires 0 <= d < 10
  {
    ('0' as int + d) as char
  }

  predicate IsDigit(c: char) {
    '0' <= c <= '9'
  }

  predicate AllDigits(s: string) {
    forall i :: 0 <= i < |s| ==> IsDigit(s[i])
  }

  /** Decimal rendering of a natural number, as `%v` and `strconv.Itoa` print it. */
  function NatDecimal(n: nat): (s: string)
    ensures |s| >= 1
    ensures AllDigits(s)
    ensures n > 0 ==> s[0] != '0'
    decreases n
  {
    if n < 10 then [DigitChar(n)] else NatDecimal(n / 10) + [DigitChar(n % 10)]
  }

  /** Decimal rendering of an integer: a '-' before the digits of a negative one. */
  function Decimal(n: int): (s: string)
    ensures |s| >= 1
    ensures ',' !in s && ' ' !in s && ']' !in s
  {
    if n < 0 then "-" + NatDecimal(-n) else NatDecimal(n)
  }

  /** The value of a string of digits. */
  function DigitsValue(s: string): nat
    requires AllDigits(s)
  {
    if |s| == 0 then 0
    else
      assert IsDigit(s[|s| - 1]);
      DigitsValue(s[..|s| - 1]) * 10 + (s[|s| - 1] as int - '0' as int)
  }

  /** Reads back what `Decimal` prints: an optional '-' and at least one digit. */
  function ParseDecimal(s: string): Option<int> {
    if |s| >= 2 && s[0] == '-' && AllDigits(s[1..]) then
      Some(-(DigitsValue(s[1..]) as int))
    else if |s| >= 1 && AllDigits(s) then
      Some(DigitsValue(s))
    else None
  }

  lemma {:induction false} NatDecimalValue(n: nat)
    ensures DigitsValue(NatDecimal(n)) == n
    decreases n
  {
    if n >= 10 {
      NatDecimalValue(n / 10);
      var s := NatDecimal(n);
      assert s[..|s| - 1] == NatDecimal(n / 10);
    }
  }

  /** A '-' followed by digits reads as the negated value of the digits. */
  lemma ParseNegative(s: string, digits: string)
    requires |digits| >= 1 && AllDigits(digits)
    requires s == "-" + digits
    ensures ParseDecimal(s) == Some(-(DigitsValue(digits) as int))
  {
    assert s[1..] == digits;
  }

  /** Digits alone read as their value. */
  lemma ParseNonNegative(digits: string)
    requires |digits| >= 1 && AllDigits(digits)
    ensures ParseDecimal(digits) == Some(DigitsValue(digits) as int)
  {
    assert IsDigit(digits[0]);
  }

  /** Parsing undoes printing. */
  lemma DecimalRoundTrip(n: int)
    ensures ParseDecimal(Decimal(n)) == Some(n)
  {
    if n < 0 {
      NegativeRoundTrip(n);
    } else {
      NonNegativeRoundTrip(n);
    }
  }

  /** The round trip for a negative number. */
  lemma NegativeRoundTrip(n: int)
    requires n < 0
    ensures ParseDecimal(Decimal(n)) == Some(n)
  {
    var digits := NatDecimal(-n);
    NatDecimalValue(-n);
    ParseNegative(Decimal(n), digits);
  }

  /** The round trip for a number that is not negative. */
  lemma NonNegativeRoundTrip(n: nat)
    ensures ParseDecimal(Decimal(n)) == Some(n)
  {
    NatDecimalValue(n);
    ParseNonNegative(NatDecimal(n));
  }
}

=== FILE: wrappers.dfy ===
/** Failure-carrying datatypes shared by every module of the model. */
module Wrappers {

  /** A value that may be absent (Go's nil pointer or missing map entry). */
  datatype Option<+T> = None | Some(value: T) {

    /** The wrapped value, or `default` when absent. */
    function GetOr(default: T): T {
      match this
      case Some(v) => v
      case None => default
    }
  }

  /** The `(value, error)` pair Go functions return: exactly one side is meaningful. */
  datatype Result<+T, +E> = Success(value: T) | Failure(error: E)
}
